=== FILE: README.md ===
# CPU Spy core in Dafny

CPU Spy is an Android application that shows how long the CPU has spent at
each frequency. It reads the kernel's `time_in_state` table, adds a
"deep sleep" state computed from the two system clocks, and lets the user
reset the timers without rebooting. A reset records an offset per frequency
that is later subtracted from the readings. This project models the three
parts of the application that hold that logic.

- `cpu_state_monitor.dfy`, module `StateMonitor`: the `CpuStateMonitor`
  class. It keeps two fields, `states` (the `_states` list) and `offsets`
  (the `_offsets` sparse array, as a `map<int, int>`). It has methods for
  `updateStates`/`readInStates`, `getStates` (with its global rollback),
  `getTotalStateTime`, `setOffsets()`, `setOffsets(map)` and
  `removeOffsets`. Each method is proved against specification functions
  (`AfterUpdate`, `ReadLines`, `AdjustedStates`, `OffsetsAfterRead`,
  `Snapshot`, `SumDurations`, `SumValues`), and lemmas about those
  functions state what the class promises.
- `cpu_spy_app.dfy`, module `SpyApp`: the `CpuSpyApp` class. It holds the
  monitor and the "offsets" preference string. `saveOffsets` writes
  `"<freq> <offset>,"` for each entry, in whatever order the map's entry
  set visits the keys. `loadOffsets` splits the string on `","` and then on
  `" "`. The round-trip lemma holds for every visiting order.
- `home_activity.dfy`, module `Home`: the logic of `HomeActivity` behind
  the screen. This is `sToString`, the frequency label, the split of the
  states into rows and unused states, the `", "` join, and the conversion
  from ticks to seconds. `UpdateView` puts them together over the monitor.
- `java_text.dfy`, module `JavaText`: the `java.lang` behaviour the
  sources rely on. This is truncating `/` and `%`, `Integer.toString`,
  `Integer.parseInt`/`Long.parseLong` over ASCII digits, and `String.split`
  with a one-character pattern, including Java's removal of trailing empty
  strings.
- `collections.dfy`, module `Collections`: two facts about non-empty sets
  and maps, used when a loop or function picks an arbitrary key.

Some behaviour of the code may surprise; the model follows the code:

- A malformed line does not leave the previous list untouched.
  `updateStates` clears `_states` before reading
  (`CpuStateMonitor.java:154`), so the list keeps the states of the lines
  before the bad one and gets no deep-sleep state (`AfterUpdate`,
  `UpdateFails`).
- A line is split on a single space, not on whitespace, and tokens after
  the second are ignored (`ParseLineFormat`). Two spaces right after the
  first token make the second token empty, and the line fails
  (`DoubleSpaceFails`); two spaces later on only add an ignored empty token. An empty line fails too,
  like any line without a space (`ParseLineSingleToken`).
- Nothing makes the frequencies unique. Where uniqueness matters, the
  lemmas require it (`MarkThenReadZeroes`, `TotalMatchesAdjusted`).
- The saved string has no space after the comma, unlike the example in the
  doc comment of `saveOffsets` (`CpuSpyApp.java:86`).
- `getTotalStateTime` does no rollback check, so it can disagree with
  `getStates` and even go negative (`TotalIgnoresRollback`,
  `NegativeTotalText`).

## Model

| member | source | states |
|---|---|---|
| JavaText.JavaDiv | src/com/bvalosek/cpuspy/ui/HomeActivity.java:201-202 | Java's long division: the remainder left over has the dividend's sign and is smaller than the divisor in magnitude |
| JavaText.JavaRem | src/com/bvalosek/cpuspy/ui/HomeActivity.java:203 | Java's `%`: the remainder has the dividend's sign and is smaller than the divisor in magnitude |
| JavaText.IntStr | src/com/bvalosek/cpuspy/CpuSpyApp.java:97 | Long/Integer.toString: non-empty, only digits apart from a leading '-' on negative values |
| JavaText.ParseInt | src/com/bvalosek/cpuspy/CpuStateMonitor.java:184-185 | parseInt/parseLong accept only an optional sign followed by digits; the empty string fails |
| JavaText.IntStrRoundTrip | src/com/bvalosek/cpuspy/CpuSpyApp.java:77-78 | parsing what toString wrote gives back the same value, for every integer |
| JavaText.Split | src/com/bvalosek/cpuspy/CpuSpyApp.java:74 | String.split on one character: no piece contains the separator; without a separator the whole string is the one piece; otherwise the pieces are the raw pieces with exactly the trailing empty ones removed (with RawSplitJoin this fixes them) |
| JavaText.SplitFirstToken | src/com/bvalosek/cpuspy/CpuSpyApp.java:76 | a separator-free token followed by nothing or by the separator is the first piece |
| JavaText.SplitTrailingSeps | src/com/bvalosek/cpuspy/CpuStateMonitor.java:182 | a separator-free token followed only by separators splits into at most one piece, as String.split drops trailing empty strings |
| JavaText.RawSplitJoin | src/com/bvalosek/cpuspy/CpuSpyApp.java:74 | the raw pieces joined again with the separator give back the string |
| JavaText.RawSplitConcat | src/com/bvalosek/cpuspy/CpuSpyApp.java:74 | a separator between two strings splits exactly there |
| StateMonitor.CompareTo | src/com/bvalosek/cpuspy/CpuStateMonitor.java:57-61 | compareTo looks at frequencies only: negative, zero or positive exactly when the frequency is smaller, equal or larger |
| StateMonitor.InsertPerm | src/com/bvalosek/cpuspy/CpuStateMonitor.java:168 | one insertion step adds exactly the new state to the multiset |
| StateMonitor.InsertSorted | src/com/bvalosek/cpuspy/CpuStateMonitor.java:168 | inserting into a list sorted by descending frequency keeps it sorted |
| StateMonitor.Insert | src/com/bvalosek/cpuspy/CpuStateMonitor.java:168 | one insertion step: one state longer, headed by the new state or the old head; InsertPerm and InsertSorted state that it adds exactly that state and keeps the order |
| StateMonitor.SortDescending | src/com/bvalosek/cpuspy/CpuStateMonitor.java:168 | Collections.sort with reverseOrder(): keeps the length; SortDescendingSpec states that it is a permutation sorted by non-increasing frequency |
| StateMonitor.SortDescendingSpec | src/com/bvalosek/cpuspy/CpuStateMonitor.java:168 | sort with reverseOrder(): a permutation of the input, sorted by non-increasing frequency |
| StateMonitor.SortUnique | src/com/bvalosek/cpuspy/CpuStateMonitor.java:168 | sorting keeps distinct frequencies distinct and the set of frequencies the same |
| StateMonitor.ParseLineFormat | src/com/bvalosek/cpuspy/CpuStateMonitor.java:182-185 | a line "<freq> <duration>", with or without more space-separated tokens after it, gives that state |
| StateMonitor.ParseLineSingleToken | src/com/bvalosek/cpuspy/CpuStateMonitor.java:182-185 | a line without a space has one token and fails |
| StateMonitor.DoubleSpaceFails | src/com/bvalosek/cpuspy/CpuStateMonitor.java:182-185 | two spaces after the first token give an empty second token, and the line fails whatever follows |
| StateMonitor.DoubleSpaceExample | src/com/bvalosek/cpuspy/CpuStateMonitor.java:182-185 | "1  2" does not parse |
| StateMonitor.ParseLine | src/com/bvalosek/cpuspy/CpuStateMonitor.java:182-185 | one line split on " " and its first two tokens parsed; no contract of its own: ParseLineFormat, ParseLineTwoTokens, ParseLineSingleToken, TrailingSpacesFail and DoubleSpaceFails state what it accepts and rejects |
| StateMonitor.ParseLineTwoTokens | src/com/bvalosek/cpuspy/CpuStateMonitor.java:182-185 | two non-empty space-free tokens, followed by nothing or by a space, give a state exactly when both tokens are numbers, and the line fails otherwise |
| StateMonitor.SplitTwoTokens | src/com/bvalosek/cpuspy/CpuStateMonitor.java:182 | two non-empty space-free tokens joined by one space, followed by nothing or by a space, are the first two pieces of the split |
| StateMonitor.TrailingSpacesFail | src/com/bvalosek/cpuspy/CpuStateMonitor.java:182-185 | a single token followed only by spaces splits into at most one token, so the line fails |
| StateMonitor.BadDurationExample | src/com/bvalosek/cpuspy/CpuStateMonitor.java:182-185 | the line "1000000 abc" fails because its duration is not a number |
| StateMonitor.ReadLines | src/com/bvalosek/cpuspy/CpuStateMonitor.java:176-191 | no more states are read than there are lines |
| StateMonitor.ReadLinesMeaning | src/com/bvalosek/cpuspy/CpuStateMonitor.java:180-186 | the states read are those of the first lines, in order; with no failure every line gave one; a failure names the first line that does not parse, and reading stopped there |
| StateMonitor.ReadLinesParsed | src/com/bvalosek/cpuspy/CpuStateMonitor.java:180-186 | every state read is the parse of the line at the same position |
| StateMonitor.ReadLinesStop | src/com/bvalosek/cpuspy/CpuStateMonitor.java:180-186 | with no failure every line gave a state; a failure names the first line that does not parse |
| StateMonitor.ReadLinesStopped | src/com/bvalosek/cpuspy/CpuStateMonitor.java:180-186 | once a line fails, later lines change nothing |
| StateMonitor.SleepTicks | src/com/bvalosek/cpuspy/CpuStateMonitor.java:164-165 | the deep-sleep ticks are the elapsed-minus-awake milliseconds divided by 10, truncated |
| StateMonitor.Refreshed | src/com/bvalosek/cpuspy/CpuStateMonitor.java:164-168 | the parsed states plus the deep-sleep state, sorted; no contract of its own: RefreshedHolds states that it is that permutation, sorted, with deep sleep last when every parsed frequency is positive |
| StateMonitor.RefreshedHolds | src/com/bvalosek/cpuspy/CpuStateMonitor.java:164-168 | the refreshed list has one more state than was parsed, is a permutation of the parsed states and the deep-sleep state, is sorted descending, and ends with deep sleep when every parsed frequency is positive |
| StateMonitor.AfterUpdate | src/com/bvalosek/cpuspy/CpuStateMonitor.java:146-171 | the states and outcome of updateStates; no contract of its own: UpdateSucceeds and UpdateFails state both paths |
| StateMonitor.SleepStateLast | src/com/bvalosek/cpuspy/CpuStateMonitor.java:166-168 | with only positive frequencies read, the frequency-0 deep-sleep state ends the sorted list |
| StateMonitor.UpdateSucceeds | src/com/bvalosek/cpuspy/CpuStateMonitor.java:146-171 | a successful update holds one state per line plus exactly one deep-sleep state (a permutation of them), sorted by descending frequency, with deep sleep last when all frequencies read are positive |
| StateMonitor.UpdateFails | src/com/bvalosek/cpuspy/CpuStateMonitor.java:150-160 | a file that cannot be opened leaves the states as they were; a malformed line is reported and the states keep the lines before it |
| StateMonitor.UpdateExample | src/com/bvalosek/cpuspy/CpuStateMonitor.java:146-171 | an end-to-end example: two lines and the clocks 6000/5000 give [(1300000, 50), (1000000, 200), (0, 100)] with total 350 |
| StateMonitor.ApplyOffsets | src/com/bvalosek/cpuspy/CpuStateMonitor.java:70-88 | same length, and each state has its own offset subtracted if it has one |
| StateMonitor.Adjust | src/com/bvalosek/cpuspy/CpuStateMonitor.java:73-78 | one state with its own offset subtracted when it has one; no contract of its own: AdjustedStatesAt states it per position |
| StateMonitor.OffsetsAfterRead | src/com/bvalosek/cpuspy/CpuStateMonitor.java:79-84 | the offsets getStates leaves: cleared when any offset is too big, kept otherwise; no contract of its own: RollbackReportsRaw and GetStatesIdempotent state its effect |
| StateMonitor.AdjustedStates | src/com/bvalosek/cpuspy/CpuStateMonitor.java:65-91 | what getStates returns; no contract of its own: AdjustedStatesAt, AdjustedNonNegative, RollbackReportsRaw and GetStatesIdempotent state its meaning |
| StateMonitor.AdjustedStatesAt | src/com/bvalosek/cpuspy/CpuStateMonitor.java:65-91 | getStates keeps length, frequencies and order; a duration is raw minus offset when it has one and no offset is too big, raw otherwise |
| StateMonitor.AdjustedNonNegative | src/com/bvalosek/cpuspy/CpuStateMonitor.java:75-84 | with non-negative raw durations, getStates never reports a negative one |
| StateMonitor.RollbackReportsRaw | src/com/bvalosek/cpuspy/CpuStateMonitor.java:79-84 | one offset larger than its duration empties the whole map, and the states come back raw |
| StateMonitor.GetStatesIdempotent | src/com/bvalosek/cpuspy/CpuStateMonitor.java:82-83 | a second getStates returns the same list and leaves the offsets as the first left them |
| StateMonitor.RollbackExample | src/com/bvalosek/cpuspy/CpuStateMonitor.java:75-84 | offsets {100: 500, 200: 10} over [(200, 50), (100, 300)] give the raw list and an empty map, though 200's offset alone would fit |
| StateMonitor.Snapshot | src/com/bvalosek/cpuspy/CpuStateMonitor.java:132-134 | the offsets setOffsets() records: keys exactly the frequencies listed, each mapped to the duration of its last state |
| StateMonitor.SnapshotZeroes | src/com/bvalosek/cpuspy/CpuStateMonitor.java:124-135 | with distinct frequencies, no snapshot offset is too big and getStates then reads every state as 0 |
| StateMonitor.MarkThenReadZeroes | src/com/bvalosek/cpuspy/CpuStateMonitor.java:128-135 | after a successful setOffsets() on a file with distinct non-zero frequencies, getStates keeps the offsets and reports every state, deep sleep included, at 0 |
| StateMonitor.SumDurations | src/com/bvalosek/cpuspy/CpuStateMonitor.java:101-103 | the sum of non-negative durations is non-negative |
| StateMonitor.SumValues | src/com/bvalosek/cpuspy/CpuStateMonitor.java:105-107 | the sum of non-negative offsets is non-negative |
| StateMonitor.SumValuesRemove | src/com/bvalosek/cpuspy/CpuStateMonitor.java:105-107 | the sum of the offsets does not depend on the order they are visited in |
| StateMonitor.SumValuesAdd | src/com/bvalosek/cpuspy/CpuStateMonitor.java:105-107 | a new offset adds its value to the sum |
| StateMonitor.SumApplyOffsets | src/com/bvalosek/cpuspy/CpuStateMonitor.java:70-88 | with distinct frequencies, the adjusted durations sum to the raw sum minus the offsets of the listed frequencies |
| StateMonitor.TotalMatchesAdjusted | src/com/bvalosek/cpuspy/CpuStateMonitor.java:97-110 | the total equals the sum of what getStates reports when the frequencies are distinct, nothing is rolled back and no offset belongs to an unlisted frequency (sufficient, not necessary) |
| StateMonitor.TotalExample | src/com/bvalosek/cpuspy/CpuStateMonitor.java:97-110 | [(200, 300), (0, 1000)] with offsets {200: 100} total 1200 |
| StateMonitor.TotalIgnoresRollback | src/com/bvalosek/cpuspy/CpuStateMonitor.java:97-110 | with offsets {100: 500} over (100, 300), getStates reports 300 but the total is -200 |
| StateMonitor.CpuStateMonitor.constructor | src/com/bvalosek/cpuspy/CpuStateMonitor.java:33-34 | a new monitor has no states and no offsets |
| StateMonitor.CpuStateMonitor.GetStates | src/com/bvalosek/cpuspy/CpuStateMonitor.java:65-91 | returns AdjustedStates of the old fields, leaves the states and sets the offsets to OffsetsAfterRead |
| StateMonitor.CpuStateMonitor.GetTotalStateTime | src/com/bvalosek/cpuspy/CpuStateMonitor.java:97-110 | returns the raw sum minus the sum of every offset |
| StateMonitor.CpuStateMonitor.SetOffsetsTo | src/com/bvalosek/cpuspy/CpuStateMonitor.java:120-122 | installs the given map as it is; the states are untouched |
| StateMonitor.CpuStateMonitor.SetOffsets | src/com/bvalosek/cpuspy/CpuStateMonitor.java:128-135 | updates the states as AfterUpdate says; on success the offsets are the Snapshot of the new states, on failure they stay empty |
| StateMonitor.CpuStateMonitor.RemoveOffsets | src/com/bvalosek/cpuspy/CpuStateMonitor.java:138-140 | empties the offsets and leaves the states |
| StateMonitor.CpuStateMonitor.UpdateStates | src/com/bvalosek/cpuspy/CpuStateMonitor.java:146-171 | the new states and the outcome are AfterUpdate of the old states; the offsets are never touched |
| StateMonitor.CpuStateMonitor.ReadInStates | src/com/bvalosek/cpuspy/CpuStateMonitor.java:176-191 | appends the states ReadLines reads and reports the line it stopped at; the offsets are untouched |
| SpyApp.EntryText | src/com/bvalosek/cpuspy/CpuSpyApp.java:97 | an entry "<freq> <offset>" is never empty and holds no comma |
| SpyApp.EntryTexts | src/com/bvalosek/cpuspy/CpuSpyApp.java:95-98 | one entry text per visited key, in visiting order |
| SpyApp.EncodeOffsets | src/com/bvalosek/cpuspy/CpuSpyApp.java:94-98 | the string saveOffsets builds for a given visiting order; no contract of its own: EncodeEmpty and OffsetsRoundTrip state that it is empty exactly for the empty map and decodes back to the map |
| SpyApp.ParseEntry | src/com/bvalosek/cpuspy/CpuSpyApp.java:76-78 | a piece that cannot be read is reported with that piece; EntryTwoTokens and EntryWithoutSpaceFails state which pieces are read |
| SpyApp.EntryTwoTokens | src/com/bvalosek/cpuspy/CpuSpyApp.java:76-78 | a piece of two non-empty space-free tokens, followed by nothing or by a space, gives an offset exactly when both tokens are numbers, and fails with BadNumber of that piece otherwise |
| SpyApp.BadOffsetExample | src/com/bvalosek/cpuspy/CpuSpyApp.java:76-78 | the piece "100 abc" fails with BadNumber("100 abc") |
| SpyApp.EntryWithoutSpaceFails | src/com/bvalosek/cpuspy/CpuSpyApp.java:76-78 | a piece without a space has no parts[1]: it fails with BadNumber when it is not a number and with MissingField otherwise |
| SpyApp.EntryBadFrequency | src/com/bvalosek/cpuspy/CpuSpyApp.java:76-77 | a first token with a character that is neither a digit nor a sign makes the piece fail with BadNumber, whatever follows |
| SpyApp.EntryBadFrequencyExample | src/com/bvalosek/cpuspy/CpuSpyApp.java:76-77 | "abc 5" fails with BadNumber |
| SpyApp.DecodeEntries | src/com/bvalosek/cpuspy/CpuSpyApp.java:73-79 | a rejection always names one of the pieces |
| SpyApp.DecodeOffsets | src/com/bvalosek/cpuspy/CpuSpyApp.java:73-79 | the map loadOffsets builds, or the failure that stops it; no contract of its own: OffsetsRoundTrip, TwoEntries, LaterEntryWins, OnlyCommasClear and DecodeStops state its behaviour |
| SpyApp.EntryTextRoundTrip | src/com/bvalosek/cpuspy/CpuSpyApp.java:76-78 | every entry saveOffsets writes reads back as the same frequency and offset |
| SpyApp.SplitEncoded | src/com/bvalosek/cpuspy/CpuSpyApp.java:94-98 | the saved string splits on "," into the entry texts and an empty last piece |
| SpyApp.SplitOffsets | src/com/bvalosek/cpuspy/CpuSpyApp.java:74 | split(",") drops that trailing empty piece and returns exactly the entries |
| SpyApp.DecodeEntryTexts | src/com/bvalosek/cpuspy/CpuSpyApp.java:73-79 | decoding the entry texts gives the map restricted to the visited keys |
| SpyApp.EncodeEmpty | src/com/bvalosek/cpuspy/CpuSpyApp.java:94-98 | the saved string is empty exactly when there are no offsets |
| SpyApp.OffsetsRoundTrip | src/com/bvalosek/cpuspy/CpuSpyApp.java:73-98 | for every non-empty map and every visiting order, loading what saveOffsets wrote gives the same map; an empty map is saved as "" |
| SpyApp.TwoEntries | src/com/bvalosek/cpuspy/CpuSpyApp.java:73-78 | two comma-joined entries are put into the map in order |
| SpyApp.LaterEntryWins | src/com/bvalosek/cpuspy/CpuSpyApp.java:73-78 | when a frequency appears twice, the later offset is the one kept |
| SpyApp.OnlyCommasClear | src/com/bvalosek/cpuspy/CpuSpyApp.java:74-81 | "," has no pieces at all and loads as the empty map |
| SpyApp.DecodeStops | src/com/bvalosek/cpuspy/CpuSpyApp.java:75-78 | the first piece that fails ends the load with that piece's failure |
| SpyApp.CpuSpyApp.constructor | src/com/bvalosek/cpuspy/CpuSpyApp.java:36 | a new application holds a fresh monitor without states or offsets |
| SpyApp.CpuSpyApp.LoadOffsets | src/com/bvalosek/cpuspy/CpuSpyApp.java:63-82 | an empty preference leaves the offsets; otherwise the decoded map replaces them wholesale, or a failing piece leaves them as they were; the states are never touched |
| SpyApp.CpuSpyApp.SaveOffsets | src/com/bvalosek/cpuspy/CpuSpyApp.java:88-102 | the stored string is EncodeOffsets over some order that visits every key exactly once |
| Home.TicksToSeconds | src/com/bvalosek/cpuspy/ui/HomeActivity.java:241 | ticks / 100 truncated toward zero: the whole seconds below a non-negative count, above a negative one |
| Home.Hours | src/com/bvalosek/cpuspy/ui/HomeActivity.java:201 | tSec / 3600 truncated; no contract of its own: ClockFields states the field bounds |
| Home.Minutes | src/com/bvalosek/cpuspy/ui/HomeActivity.java:202 | what is left after the hours, / 60 truncated; no contract of its own: ClockFields states the field bounds |
| Home.Seconds | src/com/bvalosek/cpuspy/ui/HomeActivity.java:203 | tSec % 60 with Java's sign; no contract of its own: ClockFields states the field bounds |
| Home.Padded | src/com/bvalosek/cpuspy/ui/HomeActivity.java:206-211 | a "0" written before a field below 10; no contract of its own: PaddedField states the two-digit form |
| Home.SToString | src/com/bvalosek/cpuspy/ui/HomeActivity.java:200-214 | the h:mm:ss text; no contract of its own: HoursUnpadded, ClockRoundTrip and NegativeTotalText state what it shows |
| Home.HoursUnpadded | src/com/bvalosek/cpuspy/ui/HomeActivity.java:200-214 | the text of a non-negative time has exactly three colon-separated fields: the hours as Long.toString writes them (no sign, no leading zero unless the hours are 0) and the minutes and seconds padded to two digits |
| Home.PaddedHoursRejected | src/com/bvalosek/cpuspy/ui/HomeActivity.java:200-214 | a text with padded hours such as "00:00:05" is not read back as a time, since sToString never writes one |
| Home.ClockFields | src/com/bvalosek/cpuspy/ui/HomeActivity.java:200-203 | for tSec >= 0: h*3600 + m*60 + s == tSec with 0 <= m, s < 60 |
| Home.PaddedField | src/com/bvalosek/cpuspy/ui/HomeActivity.java:206-211 | minutes and seconds below 60 are written as exactly two digits |
| Home.ClockRoundTrip | src/com/bvalosek/cpuspy/ui/HomeActivity.java:200-214 | the h:mm:ss text of a non-negative time reads back as that time under a reader that accepts only unpadded hours and two-digit minutes and seconds |
| Home.NegativeTotalText | src/com/bvalosek/cpuspy/ui/HomeActivity.java:166-167 | a total of -200 ticks is shown as "0:00:0-2" |
| Home.LabelMeaningOf | src/com/bvalosek/cpuspy/ui/HomeActivity.java:234-238 | the label reads as "Deep Sleep" exactly for frequency 0, otherwise as freq/1000 followed by " MHz" |
| Home.FreqLabel | src/com/bvalosek/cpuspy/ui/HomeActivity.java:233-238 | "Deep Sleep" for frequency 0, freq / 1000 and " MHz" otherwise, as in both generateStateRow and updateView (:149-153); no contract of its own: LabelMeaningOf and FreqLabelNoComma state its meaning |
| Home.FreqLabelNoComma | src/com/bvalosek/cpuspy/ui/HomeActivity.java:149-153 | no label holds a comma |
| Home.Used | src/com/bvalosek/cpuspy/ui/HomeActivity.java:146-147 | only states with a positive duration get a row |
| Home.Unused | src/com/bvalosek/cpuspy/ui/HomeActivity.java:148-154 | only states without a positive duration are listed as unused |
| Home.PartitionIsPermutation | src/com/bvalosek/cpuspy/ui/HomeActivity.java:145-155 | every state lands in exactly one of the two lists |
| Home.PartitionKeepsOrder | src/com/bvalosek/cpuspy/ui/HomeActivity.java:145-155 | both lists keep the order of getStates |
| Home.RowOf | src/com/bvalosek/cpuspy/ui/HomeActivity.java:220-245 | a row's label and its duration text; no contract of its own: its parts are stated by LabelMeaningOf and ClockRoundTrip |
| Home.Rows | src/com/bvalosek/cpuspy/ui/HomeActivity.java:220-245 | no contract of its own: PartitionStates places the rows, and LabelMeaningOf and ClockRoundTrip state the parts of each RowOf |
| Home.PartitionStates | src/com/bvalosek/cpuspy/ui/HomeActivity.java:144-155 | the loop produces the rows of Used and the labels of Unused |
| Home.JoinLabels | src/com/bvalosek/cpuspy/ui/HomeActivity.java:171-178 | the loop with its counter builds Join of the labels |
| Home.Join | src/com/bvalosek/cpuspy/ui/HomeActivity.java:171-178 | the items with ", " between them; no contract of its own: JoinSplits states where the separators go |
| Home.JoinSplits | src/com/bvalosek/cpuspy/ui/HomeActivity.java:171-178 | ", " goes only between consecutive items: splitting on "," gives the first item and then every other behind one space |
| Home.UnusedTextLists | src/com/bvalosek/cpuspy/ui/HomeActivity.java:170-182 | the unused text splits back into the label of every unused state, in order |
| Home.StateSections | src/com/bvalosek/cpuspy/ui/HomeActivity.java:144-187 | the rows are those of the used states, and the unused section is hidden when no state is unused and otherwise is the ", "-joined labels of the unused states |
| Home.UpdateView | src/com/bvalosek/cpuspy/ui/HomeActivity.java:138-190 | rows and unused section come from getStates; with no states the warning is switched on and the rows and total hidden, otherwise all three stay as the previous screen had them; the total is getTotalStateTime / 100 as h:mm:ss; the unused section is hidden when empty |

## Left out

- Reading the `time_in_state` file is not modelled. Its lines come in as an `Option<seq<string>>`, with None when the file cannot be opened. An IOException in the middle of reading (`CpuStateMonitor.java:187-189`) is not modelled.
- The `SystemClock.elapsedRealtime` and `SystemClock.uptimeMillis` readings are the `elapsed` and `uptime` parameters.
- `updateKernelVersion`, `getKernelVersion` and the kernel line at the end of `updateView` read `/proc/version` and are not part of this model.
- The SharedPreferences store is one `saved` string field of `CpuSpyApp`. A null preference counts as the empty string. `commit` and persistence across runs are not modelled.
- `getOffsets` is direct access to the `offsets` field. The aliasing it and `setOffsets(map)` create is not modelled: the map is shared with the caller in Java and copied in the model.
- The `AsyncTask` refresh, the `_updatingData` guard, the activity lifecycle, the menus (reset and restore call the modelled methods in sequence) and view inflation are UI plumbing and are not modelled. Of the visibility changes, the model keeps the warning, the rows view, the total (one flag for the text and its header) and the unused section (one value for the text and its header).
- The percentage and progress bar of each row are float arithmetic and are left out of `StateRow`.
- `Logger.java` only wraps the Android log and is not part of this model.
- Integers are unbounded. The 32-bit `int` frequency, the 64-bit `long` durations and sums, and parse failures for values out of range are not modelled.
- `Integer.parseInt` also accepts non-ASCII Unicode digits. The model accepts only '0'-'9'.
- The NumberFormatException and ArrayIndexOutOfBoundsException that a bad line or a bad preference throws are unchecked, so they escape `updateStates` and `loadOffsets`. The model returns them as the `Failed` and `LoadFailed` outcomes. What the caller then does (the application stops) is not modelled.
- Home.UpdateView: the source only ever switches the warning on and the rows and total off (`HomeActivity.java:158-163`); nothing undoes it on a later call. The model carries those three flags over from the previous screen, and what the layout shows before the first call is a parameter, not modelled.
- SortDescendingSpec: the sort is a stable insertion sort, like Java's stable sort, but stability is not stated as a property. Only sortedness and permutation are proved.
- Home.ClockFields: stated only for tSec >= 0. For negative times only the example `NegativeTotalText` is proved.

=== FILE: collections.dfy ===
/** Small facts about maps and sets of integers: a non-empty one has a
    member to pick. */
module Collections {

  lemma NoKeysEmpty(m: map<int, int>)
    requires forall k :: k !in m
    ensures m == map[]
  {
    assert forall k :: k in m.Keys <==> k in {};
    assert m.Keys == {};
  }

  lemma HasKey(m: map<int, int>)
    requires m != map[]
    ensures exists k :: k in m
  {
    if forall k :: k !in m {
      NoKeysEmpty(m);
      assert false;
    }
  }

  lemma NoElementsEmpty(s: set<int>)
    requires forall k :: k !in s
    ensures s == {}
  {
    assert forall k :: k in s <==> k in {};
  }

  lemma HasElement(s: set<int>)
    requires s != {}
    ensures exists k :: k in s
  {
    if forall k :: k !in s {
      NoElementsEmpty(s);
      assert false;
    }
  }
}

=== FILE: cpu_spy_app.dfy ===
/** The application object's persistence of the timer offsets: saveOffsets
    writes the monitor's offset map into the "offsets" preference as
    "<freq> <offset>," per entry, and loadOffsets reads such a string back
    into the monitor. */
module SpyApp {
  import opened JavaText
  import opened StateMonitor
  import Collections

  // ---------------------------------------------------------------------
  // The preference string

  /** One entry as saveOffsets writes it, without the trailing comma. */
  function EntryText(freq: int, offset: int): (t: string)
    ensures ',' !in t && t != []
  {
    var t := IntStr(freq) + " " + IntStr(offset);
    assert forall i :: 0 <= i < |t| ==> t[i] != ',' by {
      assert forall i :: 0 <= i < |IntStr(freq)| ==> t[i] == IntStr(freq)[i];
      assert forall i :: |IntStr(freq)| + 1 <= i < |t| ==> t[i] == IntStr(offset)[i - |IntStr(freq)| - 1];
    }
    t
  }

  /** The keys of `m`, each exactly once, in some order: the order the
      HashMap's entry set happens to visit them in. */
  predicate Enumerates(order: seq<int>, keys: set<int>) {
    && (forall i :: 0 <= i < |order| ==> order[i] in keys)
    && (forall k :: k in keys ==> k in order)
    && (forall i, j :: 0 <= i < j < |order| ==> order[i] != order[j])
  }

  /** The string saveOffsets builds when it visits the keys in `order`. */
  function EncodeOffsets(order: seq<int>, m: map<int, int>): string
    requires forall i :: 0 <= i < |order| ==> order[i] in m
  {
    if order == [] then ""
    else
      var k := order[|order| - 1];
      EncodeOffsets(order[..|order| - 1], m) + EntryText(k, m[k]) + ","
  }

  /** The entry texts in visiting order. */
  function EntryTexts(order: seq<int>, m: map<int, int>): (r: seq<string>)
    requires forall i :: 0 <= i < |order| ==> order[i] in m
    ensures |r| == |order|
    ensures forall i :: 0 <= i < |order| ==> r[i] == EntryText(order[i], m[order[i]])
  {
    if order == [] then []
    else
      var k := order[|order| - 1];
      EntryTexts(order[..|order| - 1], m) + [EntryText(k, m[k])]
  }

  /** Why loadOffsets gives up on a piece: `parts[0]` or `parts[1]` does not
      exist (an index out of bounds), or is not a number. */
  datatype LoadFailure = MissingField(piece: string) | BadNumber(piece: string)

  datatype Entry = Entry(freq: int, offset: int)

  datatype EntryResult = EntryOk(entry: Entry) | EntryFailed(failure: LoadFailure)

  /** One comma-separated piece: split on " ", parts[0] is parsed as the
      frequency before parts[1] is looked at, parts[1] is the offset, further
      parts are ignored. */
  function ParseEntry(piece: string): (r: EntryResult)
    ensures r.EntryFailed? ==> r.failure.piece == piece
  {
    var parts := Split(piece, ' ');
    if |parts| < 1 then EntryFailed(MissingField(piece))
    else match ParseInt(parts[0])
      case None => EntryFailed(BadNumber(piece))
      case Some(freq) =>
        if |parts| < 2 then EntryFailed(MissingField(piece))
        else match ParseInt(parts[1])
          case None => EntryFailed(BadNumber(piece))
          case Some(offset) => EntryOk(Entry(freq, offset))
  }

  /** Two non-empty tokens give an entry exactly when both are numbers;
      otherwise the piece fails with BadNumber, whichever token is bad. */
  lemma EntryTwoTokens(a: string, b: string, rest: string)
    requires a != [] && b != [] && ' ' !in a && ' ' !in b
    requires rest == [] || rest[0] == ' '
    ensures var piece := a + " " + b + rest;
            ParseEntry(piece)
            == if ParseInt(a).Some? && ParseInt(b).Some? then EntryOk(Entry(ParseInt(a).value, ParseInt(b).value))
               else EntryFailed(BadNumber(piece))
  {
    SplitTwoTokens(a, b, rest);
  }

  /** The example "100 abc": the offset is not a number. */
  lemma BadOffsetExample()
    ensures ParseEntry("100 abc") == EntryFailed(BadNumber("100 abc"))
  {
    EntryTwoTokens("100", "abc", "");
    assert !IsDigit("abc"[0]);
    assert "100" + " " + "abc" + "" == "100 abc";
  }

  /** A piece without a space has no parts[1]: it fails, on the frequency
      when that is not a number and on the missing offset otherwise. */
  lemma EntryWithoutSpaceFails(piece: string)
    requires ' ' !in piece
    ensures ParseEntry(piece)
            == EntryFailed(if ParseInt(piece).None? then BadNumber(piece) else MissingField(piece))
  {
  }

  /** A first token holding a character that is neither a digit nor a sign
      is no number, and the piece fails on it, whatever follows. */
  lemma EntryBadFrequency(tok: string, rest: string)
    requires ' ' !in tok && tok != []
    requires rest == [] || rest[0] == ' '
    requires exists i :: 0 <= i < |tok| && !IsDigit(tok[i]) && tok[i] != '-' && tok[i] != '+'
    ensures ParseEntry(tok + rest) == EntryFailed(BadNumber(tok + rest))
  {
    SplitFirstToken(tok, rest, ' ');
  }

  /** The example "abc 5": the frequency is not a number. */
  lemma EntryBadFrequencyExample()
    ensures ParseEntry("abc 5") == EntryFailed(BadNumber("abc 5"))
  {
    assert !IsDigit("abc"[0]);
    EntryBadFrequency("abc", " 5");
    assert "abc" + " 5" == "abc 5";
  }

  datatype Decoded = Decoded(offsets: map<int, int>) | Rejected(failure: LoadFailure)

  /** The loop of loadOffsets over the pieces: each entry is put into the
      map in turn, so a later entry for the same frequency wins; the first
      piece that fails stops everything. */
  function DecodeEntries(pieces: seq<string>): (r: Decoded)
    ensures r.Rejected? ==> r.failure.piece in pieces
  {
    if pieces == [] then Decoded(map[])
    else
      var init := pieces[..|pieces| - 1];
      match DecodeEntries(init)
      case Rejected(e) => Rejected(e)
      case Decoded(m) =>
        match ParseEntry(pieces[|pieces| - 1])
        case EntryFailed(e) => Rejected(e)
        case EntryOk(entry) => Decoded(m[entry.freq := entry.offset])
  }

  /** What loadOffsets makes of a non-empty preference string. */
  function DecodeOffsets(prefs: string): Decoded {
    DecodeEntries(Split(prefs, ','))
  }

  // ---------------------------------------------------------------------
  // Round trip

  lemma EntryTextRoundTrip(freq: int, offset: int)
    ensures ParseEntry(EntryText(freq, offset)) == EntryOk(Entry(freq, offset))
  {
    IntStrNoSpace(freq);
    IntStrNoSpace(offset);
    SplitTwoTokens(IntStr(freq), IntStr(offset), "");
    assert IntStr(freq) + " " + IntStr(offset) + "" == EntryText(freq, offset);
    IntStrRoundTrip(freq);
    IntStrRoundTrip(offset);
  }

  /** The encoded entries followed by comma-free text split into the entry
      texts and that text. */
  lemma {:induction false} SplitEncoded(order: seq<int>, m: map<int, int>, t: string)
    requires forall i :: 0 <= i < |order| ==> order[i] in m
    requires ',' !in t
    ensures RawSplit(EncodeOffsets(order, m) + t, ',') == EntryTexts(order, m) + [t]
  {
    if order == [] {
      assert EncodeOffsets(order, m) + t == t;
      RawSplitNoSep(t, ',');
    } else {
      var init, k := order[..|order| - 1], order[|order| - 1];
      var e := EntryText(k, m[k]);
      assert EncodeOffsets(order, m) + t == (EncodeOffsets(init, m) + e) + [','] + t;
      RawSplitConcat(EncodeOffsets(init, m) + e, ',', t);
      SplitEncoded(init, m, e);
      RawSplitNoSep(t, ',');
    }
  }

  lemma DropOneTrailingEmpty(p: seq<string>)
    requires p != [] && p[|p| - 1] != ""
    ensures DropTrailingEmpty(p + [""]) == p
  {
    assert (p + [""])[..|p|] == p;
  }

  /** Splitting what saveOffsets wrote on "," gives one piece per key. */
  lemma SplitOffsets(order: seq<int>, m: map<int, int>)
    requires forall i :: 0 <= i < |order| ==> order[i] in m
    requires order != []
    ensures Split(EncodeOffsets(order, m), ',') == EntryTexts(order, m)
  {
    var s := EncodeOffsets(order, m);
    SplitEncoded(order, m, "");
    assert s + "" == s;
    assert s[|s| - 1] == ',';
    DropOneTrailingEmpty(EntryTexts(order, m));
  }

  /** One more piece that parses extends a decoded map by its entry. */
  lemma DecodeSnoc(pieces: seq<string>, piece: string)
    requires DecodeEntries(pieces).Decoded? && ParseEntry(piece).EntryOk?
    ensures var e := ParseEntry(piece).entry;
            DecodeEntries(pieces + [piece]) == Decoded(DecodeEntries(pieces).offsets[e.freq := e.offset])
  {
    assert (pieces + [piece])[..|pieces|] == pieces;
  }

  /** `m` restricted to the keys in `order`. */
  function Restrict(m: map<int, int>, order: seq<int>): (r: map<int, int>)
    ensures r.Keys <= m.Keys
    ensures forall k :: k in r ==> r[k] == m[k]
  {
    map k | k in m && k in order :: m[k]
  }

  lemma RestrictSnoc(m: map<int, int>, order: seq<int>)
    requires order != [] && order[|order| - 1] in m
    ensures var k := order[|order| - 1];
            Restrict(m, order) == Restrict(m, order[..|order| - 1])[k := m[k]]
  {
    assert order == order[..|order| - 1] + [order[|order| - 1]];
  }

  /** Reading the entry texts back gives `m` restricted to the visited keys. */
  lemma {:induction false} DecodeEntryTexts(order: seq<int>, m: map<int, int>)
    requires forall i :: 0 <= i < |order| ==> order[i] in m
    ensures DecodeEntries(EntryTexts(order, m)) == Decoded(Restrict(m, order))
  {
    if order == [] {
      assert Restrict(m, order) == map[];
    } else {
      var init, k := order[..|order| - 1], order[|order| - 1];
      assert EntryTexts(order, m) == EntryTexts(init, m) + [EntryText(k, m[k])];
      DecodeEntryTexts(init, m);
      EntryTextRoundTrip(k, m[k]);
      DecodeSnoc(EntryTexts(init, m), EntryText(k, m[k]));
      RestrictSnoc(m, order);
    }
  }

  lemma RestrictAll(m: map<int, int>, order: seq<int>)
    requires forall k :: k in m ==> k in order
    ensures Restrict(m, order) == m
  {
    forall k | k in m ensures k in Restrict(m, order) {
      assert k in m && k in order;
    }
  }

  /** saveOffsets writes nothing exactly when there is no offset. */
  lemma EncodeEmpty(order: seq<int>, m: map<int, int>)
    requires Enumerates(order, m.Keys)
    ensures EncodeOffsets(order, m) == "" <==> m == map[]
  {
    if m != map[] {
      Collections.HasKey(m);
      var k :| k in m;
      assert k in order;
    }
  }

  /** loadOffsets(saveOffsets(m)) == m whenever m has an entry, whatever
      order the keys were visited in; an empty map is saved as the empty
      string, which loadOffsets skips. */
  lemma OffsetsRoundTrip(order: seq<int>, m: map<int, int>)
    requires Enumerates(order, m.Keys)
    ensures EncodeOffsets(order, m) == "" <==> m == map[]
    ensures m != map[] ==> DecodeOffsets(EncodeOffsets(order, m)) == Decoded(m)
  {
    EncodeEmpty(order, m);
    if m != map[] {
      SplitOffsets(order, m);
      DecodeEntryTexts(order, m);
      RestrictAll(m, order);
    }
  }

  /** Two comma-free texts joined by a comma split into the two. */
  lemma SplitTwo(ta: string, tb: string)
    requires ',' !in ta && ',' !in tb && tb != []
    ensures Split(ta + "," + tb, ',') == [ta, tb]
  {
    var s := ta + "," + tb;
    assert s == ta + [','] + tb;
    assert s[|ta|] == ',';
    RawSplitConcat(ta, ',', tb);
    RawSplitNoSep(ta, ',');
    RawSplitNoSep(tb, ',');
  }

  /** Two entries joined by a comma decode in order, the second put last. */
  lemma TwoEntries(a: Entry, b: Entry)
    ensures DecodeOffsets(EntryText(a.freq, a.offset) + "," + EntryText(b.freq, b.offset))
            == Decoded(map[a.freq := a.offset][b.freq := b.offset])
  {
    var ta, tb := EntryText(a.freq, a.offset), EntryText(b.freq, b.offset);
    SplitTwo(ta, tb);
    EntryTextRoundTrip(a.freq, a.offset);
    EntryTextRoundTrip(b.freq, b.offset);
    DecodeSnoc([], ta);
    assert [] + [ta] == [ta];
    DecodeSnoc([ta], tb);
    assert [ta] + [tb] == [ta, tb];
  }

  /** A later entry for the same frequency overrides an earlier one. */
  lemma LaterEntryWins(freq: int, first: int, second: int)
    ensures DecodeOffsets(EntryText(freq, first) + "," + EntryText(freq, second))
            == Decoded(map[freq := second])
  {
    TwoEntries(Entry(freq, first), Entry(freq, second));
    assert map[freq := first][freq := second] == map[freq := second];
  }

  /** A string of commas holds no pieces at all: loading it installs the
      empty map. */
  lemma OnlyCommasClear()
    ensures DecodeOffsets(",") == Decoded(map[])
  {
    assert "," == "" + [','] + "";
    RawSplitConcat("", ',', "");
    assert RawSplit(",", ',') == ["", ""];
    assert [""][..0] == [];
  }

  // ---------------------------------------------------------------------
  // The application object

  datatype LoadOutcome = NothingSaved | Loaded | LoadFailed(failure: LoadFailure)

  class CpuSpyApp {
    /** _monitor: the long-living monitor. */
    const monitor: CpuStateMonitor
    /** The "offsets" entry of the CpuSpyPreferences store ("" when absent). */
    var saved: string

    constructor (stored: string)
      ensures fresh(monitor) && saved == stored
      ensures monitor.states == [] && monitor.offsets == map[]
    {
      monitor := new CpuStateMonitor();
      saved := stored;
    }

    /** loadOffsets: an empty preference leaves the monitor alone; otherwise
        the decoded map replaces the monitor's offsets wholesale. A piece
        that cannot be decoded ends the call with an exception before the
        monitor is touched. */
    method LoadOffsets() returns (outcome: LoadOutcome)
      modifies monitor
      ensures monitor.states == old(monitor.states)
      ensures |saved| < 1 ==> outcome == NothingSaved && monitor.offsets == old(monitor.offsets)
      ensures |saved| >= 1 ==> match DecodeOffsets(saved)
                                case Decoded(m) => outcome == Loaded && monitor.offsets == m
                                case Rejected(e) => outcome == LoadFailed(e) && monitor.offsets == old(monitor.offsets)
    {
      var prefs := saved;
      if |prefs| < 1 {
        return NothingSaved;
      }
      var offsets: map<int, int> := map[];
      var pieces := Split(prefs, ',');
      var i := 0;
      while i < |pieces|
        invariant 0 <= i <= |pieces|
        invariant DecodeEntries(pieces[..i]) == Decoded(offsets)
      {
        assert pieces[..i + 1][..i] == pieces[..i];
        var parts := Split(pieces[i], ' ');
        if |parts| < 1 {
          DecodeStops(pieces, i);
          return LoadFailed(MissingField(pieces[i]));
        }
        var freq := ParseInt(parts[0]);
        if freq.None? {
          DecodeStops(pieces, i);
          return LoadFailed(BadNumber(pieces[i]));
        }
        if |parts| < 2 {
          DecodeStops(pieces, i);
          return LoadFailed(MissingField(pieces[i]));
        }
        var offset := ParseInt(parts[1]);
        if offset.None? {
          DecodeStops(pieces, i);
          return LoadFailed(BadNumber(pieces[i]));
        }
        offsets := offsets[freq.value := offset.value];
        i := i + 1;
      }
      assert pieces[..i] == pieces;
      monitor.SetOffsetsTo(offsets);
      outcome := Loaded;
    }

    /** saveOffsets: one "<freq> <offset>," per entry of the monitor's
        offsets, in the map's iteration order, stored as the preference. */
    method SaveOffsets() returns (ghost order: seq<int>)
      modifies this
      ensures Enumerates(order, monitor.offsets.Keys)
      ensures saved == EncodeOffsets(order, monitor.offsets)
    {
      var offsets := monitor.offsets;
      var str := "";
      order := [];
      var rest := offsets.Keys;
      while rest != {}
        invariant rest <= offsets.Keys
        invariant forall i :: 0 <= i < |order| ==> order[i] in offsets && order[i] !in rest
        invariant forall k :: k in offsets && k !in rest ==> k in order
        invariant forall i, j :: 0 <= i < j < |order| ==> order[i] != order[j]
        invariant str == EncodeOffsets(order, offsets)
        decreases rest
      {
        Collections.HasElement(rest);
        var k :| k in rest;
        str := str + EntryText(k, offsets[k]) + ",";
        assert (order + [k])[..|order|] == order;
        order := order + [k];
        rest := rest - {k};
      }
      saved := str;
    }
  }

  /** When piece i fails, the whole decode fails with that piece's failure. */
  lemma DecodeStops(pieces: seq<string>, i: int)
    requires 0 <= i < |pieces|
    requires DecodeEntries(pieces[..i]).Decoded?
    requires ParseEntry(pieces[i]).EntryFailed?
    ensures DecodeEntries(pieces) == Rejected(ParseEntry(pieces[i]).failure)
  {
    DecodeFailAt(pieces, i);
    DecodeRejectedExtends(pieces, i + 1);
  }

  /** A failing piece after a prefix that decodes rejects with its failure. */
  lemma DecodeFailAt(pieces: seq<string>, i: int)
    requires 0 <= i < |pieces|
    requires DecodeEntries(pieces[..i]).Decoded?
    requires ParseEntry(pieces[i]).EntryFailed?
    ensures DecodeEntries(pieces[..i + 1]) == Rejected(ParseEntry(pieces[i]).failure)
  {
    assert pieces[..i + 1][..i] == pieces[..i];
  }

  /** Once a prefix is rejected, every longer prefix is rejected the same way. */
  lemma {:induction false} DecodeRejectedExtends(pieces: seq<string>, n: int)
    requires 0 < n <= |pieces|
    requires DecodeEntries(pieces[..n]).Rejected?
    ensures DecodeEntries(pieces) == DecodeEntries(pieces[..n])
    decreases |pieces| - n
  {
    if n < |pieces| {
      assert pieces[..n + 1][..n] == pieces[..n];
      DecodeRejectedExtends(pieces, n + 1);
    } else {
      assert pieces[..n] == pieces;
    }
  }
}

=== FILE: cpu_state_monitor.dfy ===
/** CpuStateMonitor.java: the list of (frequency, duration) states read from
    the kernel's time_in_state table plus a synthetic deep-sleep state, and a
    map of offsets subtracted from those durations so that the user can
    "restart" the timers without rebooting. */
module StateMonitor {
  import opened JavaText
  import Collections

  /** CpuState: a frequency in kHz (0 stands for deep sleep) and the time
      spent at it, in ticks of 1/100 s. */
  datatype CpuState = CpuState(freq: int, duration: int)

  /** Why updateStates gave up: the time_in_state file could not be opened
      (CpuStateMonitorException), or a line of it is not two numbers
      (NumberFormatException or ArrayIndexOutOfBoundsException). */
  datatype MonitorError = CannotOpen | MalformedLine(line: string)

  datatype Outcome = Ok | Failed(error: MonitorError)

  /** CpuState.compareTo: Integer.compareTo on the frequencies alone. */
  function CompareTo(a: CpuState, b: CpuState): (r: int)
    ensures r == -1 || r == 0 || r == 1
    ensures r < 0 <==> a.freq < b.freq
    ensures r == 0 <==> a.freq == b.freq
  {
    if a.freq < b.freq then -1 else if a.freq == b.freq then 0 else 1
  }

  /** In order under Collections.reverseOrder(): no state compares below a
      later one. */
  predicate SortedDescending(s: seq<CpuState>) {
    forall i, j :: 0 <= i < j < |s| ==> CompareTo(s[i], s[j]) >= 0
  }

  predicate UniqueFreqs(s: seq<CpuState>) {
    forall i, j :: 0 <= i < j < |s| ==> s[i].freq != s[j].freq
  }

  function Freqs(s: seq<CpuState>): set<int> {
    set i | 0 <= i < |s| :: s[i].freq
  }

  lemma FreqsSnoc(s: seq<CpuState>)
    requires s != []
    ensures Freqs(s) == Freqs(s[..|s| - 1]) + {s[|s| - 1].freq}
  {
    var init := s[..|s| - 1];
    forall f | f in Freqs(s) ensures f in Freqs(init) + {s[|s| - 1].freq} {
      var i :| 0 <= i < |s| && s[i].freq == f;
      if i < |s| - 1 { assert init[i].freq == f; }
    }
    forall f | f in Freqs(init) ensures f in Freqs(s) {
      var i :| 0 <= i < |init| && init[i].freq == f;
      assert s[i].freq == f;
    }
  }

  lemma FreqsCons(s: seq<CpuState>)
    requires s != []
    ensures Freqs(s) == {s[0].freq} + Freqs(s[1..])
  {
    var tail := s[1..];
    forall f | f in Freqs(s) ensures f in {s[0].freq} + Freqs(tail) {
      var i :| 0 <= i < |s| && s[i].freq == f;
      if i > 0 { assert tail[i - 1].freq == f; }
    }
    forall f | f in Freqs(tail) ensures f in Freqs(s) {
      var i :| 0 <= i < |tail| && tail[i].freq == f;
      assert s[i + 1].freq == f;
    }
  }

  // ---------------------------------------------------------------------
  // Collections.sort(_states, Collections.reverseOrder())

  /** Puts `x` in front of the first state that does not compare above it,
      so states with equal frequencies keep their relative order, as in the
      stable merge sort behind Collections.sort. */
  function Insert(x: CpuState, t: seq<CpuState>): (r: seq<CpuState>)
    ensures |r| == |t| + 1
    ensures t != [] ==> r[0] == x || r[0] == t[0]
  {
    if t == [] || CompareTo(x, t[0]) >= 0 then [x] + t
    else
      assert t == [t[0]] + t[1..];
      [t[0]] + Insert(x, t[1..])
  }

  /** One insertion step adds exactly the new state. */
  lemma {:induction false} InsertPerm(x: CpuState, t: seq<CpuState>)
    ensures multiset(Insert(x, t)) == multiset(t) + multiset{x}
  {
    if t != [] && CompareTo(x, t[0]) < 0 {
      InsertPerm(x, t[1..]);
      assert t == [t[0]] + t[1..];
    }
  }

  lemma {:induction false} InsertSorted(x: CpuState, t: seq<CpuState>)
    requires SortedDescending(t)
    ensures SortedDescending(Insert(x, t))
  {
    if t != [] && CompareTo(x, t[0]) < 0 {
      var tail := t[1..];
      InsertSorted(x, tail);
      var r', r := Insert(x, tail), Insert(x, t);
      assert r == [t[0]] + r';
      assert CompareTo(t[0], r'[0]) >= 0;
      forall i, j | 0 <= i < j < |r| ensures CompareTo(r[i], r[j]) >= 0 {
        if i == 0 {
          assert CompareTo(r'[0], r'[j - 1]) >= 0 || j == 1;
        } else {
          assert r[i] == r'[i - 1] && r[j] == r'[j - 1];
        }
      }
    }
  }

  /** The list sorted by descending frequency, by inserting each state
      into the sorted rest. */
  function SortDescending(s: seq<CpuState>): (r: seq<CpuState>)
    ensures |r| == |s|
  {
    if s == [] then [] else Insert(s[0], SortDescending(s[1..]))
  }

  /** The sorted list is a permutation of `s`, in descending order. */
  lemma {:induction false} SortDescendingSpec(s: seq<CpuState>)
    ensures multiset(SortDescending(s)) == multiset(s)
    ensures SortedDescending(SortDescending(s))
  {
    if s != [] {
      var rest := SortDescending(s[1..]);
      SortDescendingSpec(s[1..]);
      InsertPerm(s[0], rest);
      InsertSorted(s[0], rest);
      assert s == [s[0]] + s[1..];
    }
  }

  lemma {:induction false} InsertUnique(x: CpuState, t: seq<CpuState>)
    requires UniqueFreqs(t) && x.freq !in Freqs(t)
    ensures UniqueFreqs(Insert(x, t)) && Freqs(Insert(x, t)) == Freqs(t) + {x.freq}
  {
    var r := Insert(x, t);
    if t == [] || CompareTo(x, t[0]) >= 0 {
      assert r == [x] + t && r[1..] == t;
      FreqsCons(r);
    } else {
      var tail := t[1..];
      FreqsCons(t);
      InsertUnique(x, tail);
      var r' := Insert(x, tail);
      assert r == [t[0]] + r' && r[1..] == r';
      FreqsCons(r);
      forall i, j | 0 <= i < j < |r| ensures r[i].freq != r[j].freq {
        if i == 0 {
          assert r[j] == r'[j - 1];
          assert r[j].freq in Freqs(r');
        } else {
          assert r[i] == r'[i - 1] && r[j] == r'[j - 1];
        }
      }
    }
  }

  /** Sorting keeps frequencies unique: the sort only reorders. */
  lemma {:induction false} SortUnique(s: seq<CpuState>)
    requires UniqueFreqs(s)
    ensures UniqueFreqs(SortDescending(s)) && Freqs(SortDescending(s)) == Freqs(s)
  {
    if s != [] {
      var tail := s[1..];
      assert UniqueFreqs(tail) by {
        forall i, j | 0 <= i < j < |tail| ensures tail[i].freq != tail[j].freq {
          assert tail[i] == s[i + 1] && tail[j] == s[j + 1];
        }
      }
      SortUnique(tail);
      FreqsCons(s);
      InsertUnique(s[0], SortDescending(tail));
    }
  }

  // ---------------------------------------------------------------------
  // readInStates / updateStates

  /** One line of time_in_state: split on " ", token 0 is the frequency
      (Integer.parseInt), token 1 the duration (Long.parseLong), further
      tokens are ignored; fewer than two tokens or a token that is not a
      number fails. */
  function ParseLine(line: string): (r: Option<CpuState>)
  {
    var nums := Split(line, ' ');
    if |nums| < 2 then None
    else match (ParseInt(nums[0]), ParseInt(nums[1]))
      case (Some(f), Some(d)) => Some(CpuState(f, d))
      case _ => None
  }

  /** Two non-empty space-free tokens, then nothing or a space: split on
      " " gives those two tokens first. */
  lemma SplitTwoTokens(a: string, b: string, rest: string)
    requires a != [] && b != [] && ' ' !in a && ' ' !in b
    requires rest == [] || rest[0] == ' '
    ensures var nums := Split(a + " " + b + rest, ' ');
            |nums| >= 2 && nums[0] == a && nums[1] == b
  {
    var line := a + " " + b + rest;
    RawSplitNoSep(a, ' ');
    RawSplitNoSep(b, ' ');
    var raw := RawSplit(line, ' ');
    if rest == [] {
      assert line == a + [' '] + b;
      RawSplitConcat(a, ' ', b);
    } else {
      assert line == a + [' '] + (b + [' '] + rest[1..]);
      RawSplitConcat(a, ' ', b + [' '] + rest[1..]);
      RawSplitConcat(b, ' ', rest[1..]);
    }
    assert raw[..2] == [a, b];
    assert line[|a|] == ' ';
    var nums := DropTrailingEmpty(raw);
    assert |nums| >= 2 by {
      if |nums| < 2 { assert raw[1] == ""; }
    }
  }

  lemma IntStrNoSpace(n: int)
    ensures ' ' !in IntStr(n)
  {
    var s := IntStr(n);
    assert forall i :: 0 <= i < |s| ==> s[i] != ' ';
  }

  /** The kernel's own format "<freq> <duration>", with or without more
      space-separated tokens after it, reads back as that state. */
  lemma ParseLineFormat(freq: int, duration: int, rest: string)
    requires rest == [] || rest[0] == ' '
    ensures ParseLine(IntStr(freq) + " " + IntStr(duration) + rest) == Some(CpuState(freq, duration))
  {
    IntStrNoSpace(freq);
    IntStrNoSpace(duration);
    SplitTwoTokens(IntStr(freq), IntStr(duration), rest);
    IntStrRoundTrip(freq);
    IntStrRoundTrip(duration);
  }

  /** A line without a space is a single token, and fails. */
  lemma ParseLineSingleToken(line: string)
    requires ' ' !in line
    ensures ParseLine(line) == None
  {
  }

  /** A single token followed only by spaces has no second token, and
      fails. */
  lemma TrailingSpacesFail(tok: string, spaces: string)
    requires ' ' !in tok
    requires forall i :: 0 <= i < |spaces| ==> spaces[i] == ' '
    ensures ParseLine(tok + spaces) == None
  {
    SplitTrailingSeps(tok, spaces, ' ');
  }

  /** Two non-empty tokens give a state exactly when both are numbers;
      a non-numeric token makes the line fail. */
  lemma ParseLineTwoTokens(a: string, b: string, rest: string)
    requires a != [] && b != [] && ' ' !in a && ' ' !in b
    requires rest == [] || rest[0] == ' '
    ensures ParseLine(a + " " + b + rest)
            == if ParseInt(a).Some? && ParseInt(b).Some? then Some(CpuState(ParseInt(a).value, ParseInt(b).value)) else None
  {
    SplitTwoTokens(a, b, rest);
  }

  /** The example "1000000 abc": the duration is not a number. */
  lemma BadDurationExample()
    ensures ParseLine("1000000 abc") == None
  {
    ParseLineTwoTokens("1000000", "abc", "");
    assert !IsDigit("abc"[0]);
    assert "1000000" + " " + "abc" + "" == "1000000 abc";
  }

  /** Two spaces after the first token make the second token empty, and
      the line fails however it goes on. */
  lemma DoubleSpaceFails(first: string, rest: string)
    requires ' ' !in first
    ensures ParseLine(first + "  " + rest) == None
  {
    var line := first + "  " + rest;
    assert line == first + [' '] + ([' '] + rest);
    assert [' '] + rest == "" + [' '] + rest;
    RawSplitConcat(first, ' ', [' '] + rest);
    RawSplitConcat("", ' ', rest);
    RawSplitNoSep(first, ' ');
    RawSplitNoSep("", ' ');
    var raw := RawSplit(line, ' ');
    assert raw[1] == "";
    assert line[|first|] == ' ';
    var nums := Split(line, ' ');
    assert nums == DropTrailingEmpty(raw);
    if |nums| >= 2 {
      assert nums[1] == "";
    }
  }

  /** The example "1  2": the empty token between the spaces fails. */
  lemma DoubleSpaceExample()
    ensures ParseLine("1  2") == None
  {
    DoubleSpaceFails("1", "2");
    assert "1" + "  " + "2" == "1  2";
  }

  datatype ReadResult = ReadResult(parsed: seq<CpuState>, failure: Option<string>)

  /** What readInStates appends and whether it stops: the states of the
      lines before the first malformed one, and that line if there is one. */
  function ReadLines(lines: seq<string>): (r: ReadResult)
    ensures |r.parsed| <= |lines|
  {
    if lines == [] then ReadResult([], None)
    else
      var r := ReadLines(lines[..|lines| - 1]);
      if r.failure.Some? then r
      else match ParseLine(lines[|lines| - 1])
        case None => ReadResult(r.parsed, Some(lines[|lines| - 1]))
        case Some(st) => ReadResult(r.parsed + [st], None)
  }

  /** The states read are those of the first lines, in order. */
  lemma {:induction false} ReadLinesParsed(lines: seq<string>)
    ensures var r := ReadLines(lines);
            forall i :: 0 <= i < |r.parsed| ==> ParseLine(lines[i]) == Some(r.parsed[i])
  {
    if lines != [] {
      var init := lines[..|lines| - 1];
      ReadLinesParsed(init);
      ReadLinesStop(init);
      var r0 := ReadLines(init);
      if r0.failure == None {
        var r := ReadLines(lines);
        forall i | 0 <= i < |r.parsed| ensures ParseLine(lines[i]) == Some(r.parsed[i]) {
          if i < |r0.parsed| {
            assert lines[i] == init[i];
            assert r.parsed[i] == r0.parsed[i];
          }
        }
      }
    }
  }

  /** Reading stops exactly at the first line that does not parse, and
      reports it; otherwise every line gives a state. */
  lemma {:induction false} ReadLinesStop(lines: seq<string>)
    ensures var r := ReadLines(lines);
            && (r.failure == None ==> |r.parsed| == |lines|)
            && (r.failure.Some? ==> |r.parsed| < |lines| && ParseLine(lines[|r.parsed|]) == None
                                    && r.failure.value == lines[|r.parsed|])
  {
    if lines != [] {
      var init := lines[..|lines| - 1];
      ReadLinesStop(init);
      var r0 := ReadLines(init);
      if r0.failure.Some? {
        assert lines[|r0.parsed|] == init[|r0.parsed|];
      }
    }
  }

  /** Both halves together: the states of the first lines, in order, and
      a stop at the first line that does not parse. */
  lemma ReadLinesMeaning(lines: seq<string>)
    ensures var r := ReadLines(lines);
            && (forall i :: 0 <= i < |r.parsed| ==> ParseLine(lines[i]) == Some(r.parsed[i]))
            && (r.failure == None ==> |r.parsed| == |lines|)
            && (r.failure.Some? ==> |r.parsed| < |lines| && ParseLine(lines[|r.parsed|]) == None
                                    && r.failure.value == lines[|r.parsed|])
  {
    ReadLinesParsed(lines);
    ReadLinesStop(lines);
  }

  /** A line that parses adds its state when nothing failed before it. */
  lemma ReadLinesStep(lines: seq<string>, i: nat, st: CpuState)
    requires i < |lines| && ReadLines(lines[..i]).failure == None
    requires ParseLine(lines[i]) == Some(st)
    ensures ReadLines(lines[..i + 1]) == ReadResult(ReadLines(lines[..i]).parsed + [st], None)
  {
    assert lines[..i + 1][..i] == lines[..i];
  }

  /** Once a line fails to parse, the lines after it are never looked at. */
  lemma {:induction false} ReadLinesStopped(lines: seq<string>, i: nat, j: nat)
    requires i < j <= |lines|
    requires ReadLines(lines[..i]).failure == None && ParseLine(lines[i]) == None
    ensures ReadLines(lines[..j]) == ReadResult(ReadLines(lines[..i]).parsed, Some(lines[i]))
    decreases j
  {
    assert lines[..j][..j - 1] == lines[..j - 1];
    if j > i + 1 {
      ReadLinesStopped(lines, i, j - 1);
    }
  }

  /** updateStates' deep-sleep time: (elapsedRealtime - uptimeMillis) / 10,
      milliseconds to ticks with Java's truncating division. */
  function SleepTicks(elapsed: int, uptime: int): (t: int)
    ensures elapsed >= uptime ==> t >= 0 && 10 * t <= elapsed - uptime < 10 * t + 10
  {
    JavaDiv(elapsed - uptime, 10)
  }

  /** The state list after a successful read: the parsed lines plus the
      deep-sleep state at frequency 0, sorted by descending frequency. */
  function Refreshed(parsed: seq<CpuState>, elapsed: int, uptime: int): seq<CpuState> {
    SortDescending(parsed + [CpuState(0, SleepTicks(elapsed, uptime))])
  }

  /** What updateStates leaves in _states and reports, given the list it
      had before and what the time_in_state file holds (None when it cannot
      be opened). The list is cleared before the lines are read, so a
      malformed line leaves the states of the lines before it. */
  function AfterUpdate(before: seq<CpuState>, source: Option<seq<string>>, elapsed: int, uptime: int)
    : (seq<CpuState>, Outcome)
  {
    match source
    case None => (before, Failed(CannotOpen))
    case Some(lines) =>
      var r := ReadLines(lines);
      match r.failure
      case Some(line) => (r.parsed, Failed(MalformedLine(line)))
      case None => (Refreshed(r.parsed, elapsed, uptime), Ok)
  }

  /** Sorted by descending frequency, a list whose only non-positive
      frequency is that of the deep-sleep state ends with it. */
  lemma SortedLastLowest(r: seq<CpuState>, k: int)
    requires SortedDescending(r) && 0 <= k < |r|
    ensures r[|r| - 1].freq <= r[k].freq
  {
    assert k < |r| - 1 ==> CompareTo(r[k], r[|r| - 1]) >= 0;
  }

  lemma OnlySleepNonPositive(parsed: seq<CpuState>, sleep: CpuState, x: CpuState)
    requires forall i :: 0 <= i < |parsed| ==> parsed[i].freq > 0
    requires x in multiset(parsed + [sleep]) && x.freq <= 0
    ensures x == sleep
  {
    var all := parsed + [sleep];
    var j :| 0 <= j < |all| && all[j] == x;
    assert forall i :: 0 <= i < |parsed| ==> all[i].freq > 0;
  }

  lemma SleepStateLast(parsed: seq<CpuState>, sleep: CpuState)
    requires sleep.freq == 0
    requires forall i :: 0 <= i < |parsed| ==> parsed[i].freq > 0
    ensures var r := SortDescending(parsed + [sleep]);
            r[|r| - 1] == sleep
  {
    var all := parsed + [sleep];
    var r := SortDescending(all);
    SortDescendingSpec(all);
    assert all[|parsed|] == sleep;
    assert sleep in multiset(r);
    var k :| 0 <= k < |r| && r[k] == sleep;
    SortedLastLowest(r, k);
    OnlySleepNonPositive(parsed, sleep, r[|r| - 1]);
  }

  /** A successful update holds the parsed lines and exactly one more state,
      the deep-sleep one, sorted by descending frequency; with only positive
      frequencies in the file, deep sleep comes last. */
  lemma UpdateSucceeds(before: seq<CpuState>, lines: seq<string>, elapsed: int, uptime: int)
    requires ReadLines(lines).failure == None
    ensures var (after, outcome) := AfterUpdate(before, Some(lines), elapsed, uptime);
            var parsed := ReadLines(lines).parsed;
            var sleep := CpuState(0, SleepTicks(elapsed, uptime));
            && outcome == Ok
            && |after| == |lines| + 1
            && multiset(after) == multiset(parsed) + multiset{sleep}
            && SortedDescending(after)
            && ((forall i :: 0 <= i < |parsed| ==> parsed[i].freq > 0) ==> after[|after| - 1] == sleep)
  {
    var parsed := ReadLines(lines).parsed;
    var sleep := CpuState(0, SleepTicks(elapsed, uptime));
    ReadLinesStop(lines);
    RefreshedHolds(parsed, sleep, elapsed, uptime);
    assert AfterUpdate(before, Some(lines), elapsed, uptime) == (Refreshed(parsed, elapsed, uptime), Ok);
  }

  /** The refreshed list is the parsed states and the deep-sleep state,
      sorted, with deep sleep last when every parsed frequency is positive. */
  lemma RefreshedHolds(parsed: seq<CpuState>, sleep: CpuState, elapsed: int, uptime: int)
    requires sleep == CpuState(0, SleepTicks(elapsed, uptime))
    ensures var after := Refreshed(parsed, elapsed, uptime);
            && |after| == |parsed| + 1
            && multiset(after) == multiset(parsed) + multiset{sleep}
            && SortedDescending(after)
            && ((forall i :: 0 <= i < |parsed| ==> parsed[i].freq > 0) ==> after[|after| - 1] == sleep)
  {
    SortDescendingSpec(parsed + [sleep]);
    assert multiset(parsed + [sleep]) == multiset(parsed) + multiset{sleep};
    if forall i :: 0 <= i < |parsed| ==> parsed[i].freq > 0 {
      SleepStateLast(parsed, sleep);
    }
  }

  /** A file the monitor cannot open, or a malformed line, is reported. */
  lemma UpdateFails(before: seq<CpuState>, source: Option<seq<string>>, elapsed: int, uptime: int)
    requires source.None? || ReadLines(source.value).failure.Some?
    ensures var (after, outcome) := AfterUpdate(before, source, elapsed, uptime);
            && outcome.Failed?
            && (source.None? ==> outcome.error == CannotOpen && after == before)
            && (source.Some? ==> outcome.error.MalformedLine?
                                 && |after| < |source.value|
                                 && (forall i :: 0 <= i < |after| ==> ParseLine(source.value[i]) == Some(after[i]))
                                 && ParseLine(source.value[|after|]) == None
                                 && outcome.error.line == source.value[|after|])
  {
    if source.Some? {
      ReadLinesMeaning(source.value);
    }
  }

  /** One more decimal digit on the right. */
  lemma NatStrStep(n: nat)
    requires n >= 10
    ensures NatStr(n) == NatStr(n / 10) + [DigitChar(n % 10)]
  {
  }

  lemma ExampleMillion()
    ensures IntStr(1000000) == "1000000"
  {
    NatStrStep(1000000);
    NatStrStep(100000);
    NatStrStep(10000);
    NatStrStep(1000);
    NatStrStep(100);
    NatStrStep(10);
  }

  lemma ExampleOnePointThree()
    ensures IntStr(1300000) == "1300000"
  {
    NatStrStep(1300000);
    NatStrStep(130000);
    NatStrStep(13000);
    NatStrStep(1300);
    NatStrStep(130);
    NatStrStep(13);
  }

  lemma ExampleFirstLine()
    ensures ParseLine("1000000 200") == Some(CpuState(1000000, 200))
  {
    ExampleMillion();
    NatStrStep(200);
    NatStrStep(20);
    ParseLineFormat(1000000, 200, "");
    assert IntStr(1000000) + " " + IntStr(200) + "" == "1000000 200";
  }

  lemma ExampleSecondLine()
    ensures ParseLine("1300000 50") == Some(CpuState(1300000, 50))
  {
    ExampleOnePointThree();
    NatStrStep(50);
    ParseLineFormat(1300000, 50, "");
    assert IntStr(1300000) + " " + IntStr(50) + "" == "1300000 50";
  }

  lemma ExampleLines()
    ensures ReadLines(["1000000 200", "1300000 50"]) == ReadResult([CpuState(1000000, 200), CpuState(1300000, 50)], None)
  {
    var lines := ["1000000 200", "1300000 50"];
    ExampleFirstLine();
    ExampleSecondLine();
    assert lines[..1] == ["1000000 200"] && lines[..1][..0] == [];
    assert ReadLines(lines[..1]) == ReadResult([CpuState(1000000, 200)], None);
  }

  /** Sorting unfolds to inserting the head into the sorted tail. */
  lemma SortStep(x: CpuState, t: seq<CpuState>)
    ensures SortDescending([x] + t) == Insert(x, SortDescending(t))
  {
    assert ([x] + t)[1..] == t;
  }

  lemma ExampleInsert()
    ensures Insert(CpuState(1000000, 200), [CpuState(1300000, 50), CpuState(0, 100)])
            == [CpuState(1300000, 50), CpuState(1000000, 200), CpuState(0, 100)]
  {
    var a, b, c := CpuState(1000000, 200), CpuState(1300000, 50), CpuState(0, 100);
    assert [b, c][1..] == [c];
    assert Insert(a, [c]) == [a, c];
    assert [b] + [a, c] == [b, a, c];
  }

  lemma ExampleSortedTail()
    ensures SortDescending([CpuState(1300000, 50), CpuState(0, 100)])
            == [CpuState(1300000, 50), CpuState(0, 100)]
  {
    var b, c := CpuState(1300000, 50), CpuState(0, 100);
    SortStep(c, []);
    assert [c] + [] == [c];
    assert SortDescending([c]) == [c];
    SortStep(b, [c]);
    assert [b] + [c] == [b, c];
  }

  lemma ExampleSorted()
    ensures SortDescending([CpuState(1000000, 200), CpuState(1300000, 50), CpuState(0, 100)])
            == [CpuState(1300000, 50), CpuState(1000000, 200), CpuState(0, 100)]
  {
    var a, b, c := CpuState(1000000, 200), CpuState(1300000, 50), CpuState(0, 100);
    ExampleSortedTail();
    ExampleInsert();
    SortStep(a, [b, c]);
    assert [a] + [b, c] == [a, b, c];
  }

  lemma ExampleTotal()
    ensures SumDurations([CpuState(1300000, 50), CpuState(1000000, 200), CpuState(0, 100)]) == 350
  {
    var after := [CpuState(1300000, 50), CpuState(1000000, 200), CpuState(0, 100)];
    var a, b := CpuState(1300000, 50), CpuState(1000000, 200);
    assert after[..2] == [a, b];
    assert [a, b][..1] == [a];
    assert [a][..0] == [];
    assert SumDurations([a]) == 50;
    assert SumDurations([a, b]) == 250;
  }
  /** The update example: lines "1000000 200" and "1300000 50", 6000 ms
      elapsed and 5000 ms awake give a deep sleep of 100 ticks, the states
      [(1300000, 50), (1000000, 200), (0, 100)] and a total of 350. */
  lemma UpdateExample()
    ensures AfterUpdate([], Some(["1000000 200", "1300000 50"]), 6000, 5000)
            == ([CpuState(1300000, 50), CpuState(1000000, 200), CpuState(0, 100)], Ok)
    ensures SumDurations([CpuState(1300000, 50), CpuState(1000000, 200), CpuState(0, 100)]) == 350
  {
    ExampleLines();
    ExampleRefreshed();
    ExampleTotal();
  }

  lemma ExampleRefreshed()
    ensures Refreshed([CpuState(1000000, 200), CpuState(1300000, 50)], 6000, 5000)
            == [CpuState(1300000, 50), CpuState(1000000, 200), CpuState(0, 100)]
  {
    ExampleSorted();
    assert SleepTicks(6000, 5000) == 100;
    assert [CpuState(1000000, 200), CpuState(1300000, 50)] + [CpuState(0, 100)]
        == [CpuState(1000000, 200), CpuState(1300000, 50), CpuState(0, 100)];
  }

  // ---------------------------------------------------------------------
  // Offsets

  /** An offset larger than its state's duration: the counters went
      backwards, so the offsets belong to an earlier boot. */
  predicate Exceeds(st: CpuState, offsets: map<int, int>) {
    st.freq in offsets && offsets[st.freq] > st.duration
  }

  predicate RolledBack(s: seq<CpuState>, offsets: map<int, int>) {
    exists i :: 0 <= i < |s| && Exceeds(s[i], offsets)
  }

  function Adjust(st: CpuState, offsets: map<int, int>): CpuState {
    if st.freq in offsets then CpuState(st.freq, st.duration - offsets[st.freq]) else st
  }

  /** Every state with its offset, if it has one, subtracted. */
  function ApplyOffsets(s: seq<CpuState>, offsets: map<int, int>): (r: seq<CpuState>)
    ensures |r| == |s|
    ensures forall i :: 0 <= i < |s| ==> r[i] == Adjust(s[i], offsets)
  {
    if s == [] then []
    else ApplyOffsets(s[..|s| - 1], offsets) + [Adjust(s[|s| - 1], offsets)]
  }

  /** The offset map after getStates: emptied when any offset exceeds its
      state's duration, untouched otherwise. */
  function OffsetsAfterRead(s: seq<CpuState>, offsets: map<int, int>): map<int, int> {
    if RolledBack(s, offsets) then map[] else offsets
  }

  /** What getStates returns: the offsets that survive the rollback check,
      applied to every state. */
  function AdjustedStates(s: seq<CpuState>, offsets: map<int, int>): seq<CpuState> {
    ApplyOffsets(s, OffsetsAfterRead(s, offsets))
  }

  /** getStates, state by state: same length, same frequencies in the same
      order; a duration loses its offset when it has one and no offset in the
      list is too big, and is reported raw otherwise. */
  lemma AdjustedStatesAt(s: seq<CpuState>, offsets: map<int, int>, i: int)
    requires 0 <= i < |s|
    ensures var r := AdjustedStates(s, offsets);
            && |r| == |s|
            && r[i].freq == s[i].freq
            && r[i].duration == (if !RolledBack(s, offsets) && s[i].freq in offsets
                                 then s[i].duration - offsets[s[i].freq]
                                 else s[i].duration)
            && (s[i].freq in offsets && !RolledBack(s, offsets) ==> offsets[s[i].freq] <= s[i].duration)
  {
  }

  /** No reported duration is negative when no raw one is. */
  lemma AdjustedNonNegative(s: seq<CpuState>, offsets: map<int, int>)
    requires forall i :: 0 <= i < |s| ==> s[i].duration >= 0
    ensures var r := AdjustedStates(s, offsets);
            forall i :: 0 <= i < |r| ==> r[i].duration >= 0
  {
    var r := AdjustedStates(s, offsets);
    forall i | 0 <= i < |r| ensures r[i].duration >= 0 {
      assert !Exceeds(s[i], OffsetsAfterRead(s, offsets));
    }
  }

  /** One offset too big throws every offset away: the whole list comes back
      raw and the map is empty. */
  lemma RollbackReportsRaw(s: seq<CpuState>, offsets: map<int, int>)
    requires RolledBack(s, offsets)
    ensures AdjustedStates(s, offsets) == s
    ensures OffsetsAfterRead(s, offsets) == map[]
  {
    var r := AdjustedStates(s, offsets);
    assert forall i :: 0 <= i < |s| ==> r[i] == s[i];
  }

  /** A second getStates returns what the first did and changes nothing more. */
  lemma GetStatesIdempotent(s: seq<CpuState>, offsets: map<int, int>)
    ensures var after := OffsetsAfterRead(s, offsets);
            && AdjustedStates(s, after) == AdjustedStates(s, offsets)
            && OffsetsAfterRead(s, after) == after
  {
    if RolledBack(s, offsets) {
      assert !RolledBack(s, map[]);
    }
  }

  /** The rollback example: offsets {100: 500, 200: 10}, states
      [(200, 50), (100, 300)]; the offset of 200 fits but that of 100 does
      not, so both states come back raw and the map is emptied. */
  lemma RollbackExample()
    ensures var s := [CpuState(200, 50), CpuState(100, 300)];
            var offsets := map[100 := 500, 200 := 10];
            AdjustedStates(s, offsets) == s && OffsetsAfterRead(s, offsets) == map[]
  {
    var s := [CpuState(200, 50), CpuState(100, 300)];
    var offsets := map[100 := 500, 200 := 10];
    assert Exceeds(s[1], offsets);
    RollbackReportsRaw(s, offsets);
  }

  /** setOffsets(): offsets.put(freq, duration) for every state in order; a
      later state with the same frequency would overwrite an earlier one. */
  function Snapshot(s: seq<CpuState>): (m: map<int, int>)
    ensures m.Keys == Freqs(s)
    ensures forall i :: 0 <= i < |s| && (forall j :: i < j < |s| ==> s[j].freq != s[i].freq)
                        ==> m[s[i].freq] == s[i].duration
  {
    if s == [] then map[]
    else
      var init := s[..|s| - 1];
      FreqsSnoc(s);
      Snapshot(init)[s[|s| - 1].freq := s[|s| - 1].duration]
  }

  /** Marking zeroes the counters: with unique frequencies, no snapshot
      offset exceeds its state and every state then reads 0. */
  lemma SnapshotZeroes(s: seq<CpuState>)
    requires UniqueFreqs(s)
    ensures !RolledBack(s, Snapshot(s))
    ensures var r := AdjustedStates(s, Snapshot(s));
            |r| == |s| && forall i :: 0 <= i < |r| ==> r[i] == CpuState(s[i].freq, 0)
  {
    var m := Snapshot(s);
    assert forall i :: 0 <= i < |s| ==> s[i].freq in m && m[s[i].freq] == s[i].duration;
  }

  lemma UniqueWithSleep(parsed: seq<CpuState>, sleep: CpuState)
    requires UniqueFreqs(parsed) && sleep.freq !in Freqs(parsed)
    ensures UniqueFreqs(parsed + [sleep])
  {
    var all := parsed + [sleep];
    forall i, j | 0 <= i < j < |all| ensures all[i].freq != all[j].freq {
      if j == |parsed| {
        assert all[i].freq == parsed[i].freq;
        assert parsed[i].freq in Freqs(parsed);
      } else {
        assert all[i] == parsed[i] && all[j] == parsed[j];
      }
    }
  }

  /** After a successful mark on a file whose frequencies are distinct and
      positive, getStates reports every state, deep sleep included, at 0. */
  lemma MarkThenReadZeroes(lines: seq<string>, elapsed: int, uptime: int)
    requires ReadLines(lines).failure == None
    requires UniqueFreqs(ReadLines(lines).parsed)
    requires 0 !in Freqs(ReadLines(lines).parsed)
    ensures var after := Refreshed(ReadLines(lines).parsed, elapsed, uptime);
            var r := AdjustedStates(after, Snapshot(after));
            && OffsetsAfterRead(after, Snapshot(after)) == Snapshot(after)
            && |r| == |lines| + 1
            && forall i :: 0 <= i < |r| ==> r[i].duration == 0
  {
    ReadLinesMeaning(lines);
    var parsed := ReadLines(lines).parsed;
    var sleep := CpuState(0, SleepTicks(elapsed, uptime));
    UniqueWithSleep(parsed, sleep);
    SortUnique(parsed + [sleep]);
    SnapshotZeroes(SortDescending(parsed + [sleep]));
  }

  // ---------------------------------------------------------------------
  // getTotalStateTime

  function SumDurations(s: seq<CpuState>): (r: int)
    ensures (forall i :: 0 <= i < |s| ==> s[i].duration >= 0) ==> r >= 0
  {
    if s == [] then 0 else SumDurations(s[..|s| - 1]) + s[|s| - 1].duration
  }

  /** Some key of a non-empty map. */
  ghost function PickKey(m: map<int, int>): (k: int)
    requires m != map[]
    ensures k in m
  {
    Collections.HasKey(m);
    var k :| k in m; k
  }

  /** The sum of the values of a map, taken in no particular order. */
  ghost function SumValues(m: map<int, int>): (r: int)
    ensures (forall k :: k in m ==> m[k] >= 0) ==> r >= 0
    decreases |m|
  {
    if m == map[] then 0
    else
      var k := PickKey(m);
      assert |m - {k}| < |m| by { assert (m - {k}).Keys == m.Keys - {k}; }
      m[k] + SumValues(m - {k})
  }

  /** The sum does not depend on the order the keys are taken in. */
  lemma {:induction false} SumValuesRemove(m: map<int, int>, k: int)
    requires k in m
    ensures SumValues(m) == m[k] + SumValues(m - {k})
    decreases |m|
  {
    var j := PickKey(m);
    if j != k {
      assert (m - {j}).Keys == m.Keys - {j};
      assert (m - {k}).Keys == m.Keys - {k};
      SumValuesRemove(m - {j}, k);
      SumValuesRemove(m - {k}, j);
      assert (m - {j}) - {k} == (m - {k}) - {j};
    }
  }

  lemma SumValuesAdd(m: map<int, int>, k: int, v: int)
    requires k !in m
    ensures SumValues(m[k := v]) == SumValues(m) + v
  {
    SumValuesRemove(m[k := v], k);
    assert m[k := v] - {k} == m;
  }

  /** Offsets restricted to the given states' frequencies. */
  function OffsetsOf(s: seq<CpuState>, offsets: map<int, int>): map<int, int> {
    map f | f in offsets && f in Freqs(s) :: offsets[f]
  }

  lemma OffsetsOfSnoc(s: seq<CpuState>, offsets: map<int, int>)
    requires s != []
    ensures var init, f := s[..|s| - 1], s[|s| - 1].freq;
            OffsetsOf(s, offsets) == if f in offsets then OffsetsOf(init, offsets)[f := offsets[f]]
                                     else OffsetsOf(init, offsets)
  {
    FreqsSnoc(s);
  }

  lemma SumDurationsSnoc(s: seq<CpuState>, x: CpuState)
    ensures SumDurations(s + [x]) == SumDurations(s) + x.duration
  {
    assert (s + [x])[..|s|] == s;
  }

  lemma UniqueSnoc(s: seq<CpuState>)
    requires s != [] && UniqueFreqs(s)
    ensures UniqueFreqs(s[..|s| - 1]) && s[|s| - 1].freq !in Freqs(s[..|s| - 1])
  {
    var init := s[..|s| - 1];
    assert forall i :: 0 <= i < |init| ==> init[i].freq == s[i].freq != s[|s| - 1].freq;
  }

  /** One step of SumApplyOffsets: the last state's offset, if any, is the
      one value the restricted offsets gain. */
  lemma OffsetsOfStep(s: seq<CpuState>, offsets: map<int, int>)
    requires s != [] && UniqueFreqs(s)
    ensures var init, last := s[..|s| - 1], s[|s| - 1];
            SumValues(OffsetsOf(s, offsets))
              == SumValues(OffsetsOf(init, offsets)) + (last.duration - Adjust(last, offsets).duration)
  {
    var init, last := s[..|s| - 1], s[|s| - 1];
    var before := OffsetsOf(init, offsets);
    UniqueSnoc(s);
    OffsetsOfSnoc(s, offsets);
    assert last.freq !in before;
    if last.freq in offsets {
      SumValuesAdd(before, last.freq, offsets[last.freq]);
    }
  }

  lemma {:induction false} SumApplyOffsets(s: seq<CpuState>, offsets: map<int, int>)
    requires UniqueFreqs(s)
    ensures SumDurations(ApplyOffsets(s, offsets)) == SumDurations(s) - SumValues(OffsetsOf(s, offsets))
  {
    if s == [] {
      assert Freqs(s) == {};
      assert OffsetsOf(s, offsets).Keys == {};
    } else {
      var init, last := s[..|s| - 1], s[|s| - 1];
      UniqueSnoc(s);
      SumApplyOffsets(init, offsets);
      assert s == init + [last];
      SumDurationsSnoc(init, last);
      SumDurationsSnoc(ApplyOffsets(init, offsets), Adjust(last, offsets));
      OffsetsOfStep(s, offsets);
    }
  }

  /** getTotalStateTime matches the sum of what getStates reports when
      the frequencies are distinct, no offset is too big and every offset
      belongs to a listed state. */
  lemma TotalMatchesAdjusted(s: seq<CpuState>, offsets: map<int, int>)
    requires UniqueFreqs(s)
    requires !RolledBack(s, offsets)
    requires offsets.Keys <= Freqs(s)
    ensures SumDurations(AdjustedStates(s, offsets)) == SumDurations(s) - SumValues(offsets)
  {
    SumApplyOffsets(s, offsets);
    assert OffsetsOf(s, offsets) == offsets;
  }

  /** The total example: states [(200, 300), (0, 1000)] and offsets
      {200: 100} give (1000 + 300) - 100 = 1200. */
  lemma TotalExample()
    ensures var s := [CpuState(200, 300), CpuState(0, 1000)];
            SumDurations(s) - SumValues(map[200 := 100]) == 1200
  {
    SumValuesAdd(map[], 200, 100);
    assert map[200 := 100] == map[][200 := 100];
  }

  /** The total does no rollback check: with offsets {100: 500} and the
      state (100, 300), getStates reports 300 while the total is -200. */
  lemma TotalIgnoresRollback()
    ensures var s := [CpuState(100, 300)];
            var offsets := map[100 := 500];
            && SumDurations(AdjustedStates(s, offsets)) == 300
            && SumDurations(s) - SumValues(offsets) == -200
  {
    var s := [CpuState(100, 300)];
    var offsets := map[100 := 500];
    assert Exceeds(s[0], offsets);
    RollbackReportsRaw(s, offsets);
    SumValuesAdd(map[], 100, 500);
    assert offsets == map[][100 := 500];
  }

  // ---------------------------------------------------------------------
  // The monitor object

  class CpuStateMonitor {
    /** _states: the raw states of the last update. */
    var states: seq<CpuState>
    /** _offsets: frequency to the duration it had when the timers were reset. */
    var offsets: map<int, int>

    constructor ()
      ensures states == [] && offsets == map[]
    {
      states := [];
      offsets := map[];
    }

    /** getStates: the states with their offsets subtracted; an offset larger
        than its duration empties the whole map and the list is computed
        again without offsets. */
    method GetStates() returns (result: seq<CpuState>)
      modifies this
      ensures states == old(states)
      ensures offsets == OffsetsAfterRead(old(states), old(offsets))
      ensures result == AdjustedStates(old(states), old(offsets))
      decreases |offsets|
    {
      result := [];
      var i := 0;
      while i < |states|
        invariant 0 <= i <= |states|
        invariant states == old(states) && offsets == old(offsets)
        invariant forall j :: 0 <= j < i ==> !Exceeds(states[j], offsets)
        invariant result == ApplyOffsets(states[..i], offsets)
      {
        var state := states[i];
        var duration := state.duration;
        if state.freq in offsets {
          var offset := offsets[state.freq];
          if offset <= duration {
            duration := duration - offset;
          } else {
            assert Exceeds(states[i], old(offsets));
            offsets := map[];
            result := GetStates();
            return;
          }
        }
        assert states[..i + 1] == states[..i] + [state];
        result := result + [CpuState(state.freq, duration)];
        i := i + 1;
      }
      assert states[..i] == states;
    }

    /** getTotalStateTime: the sum of the raw durations minus the sum of all
        offsets, whether or not their frequency is listed and with no
        rollback check. */
    method GetTotalStateTime() returns (total: int)
      ensures total == SumDurations(states) - SumValues(offsets)
    {
      var sum := 0;
      var i := 0;
      while i < |states|
        invariant 0 <= i <= |states|
        invariant sum == SumDurations(states[..i])
      {
        assert states[..i + 1][..i] == states[..i];
        sum := sum + states[i].duration;
        i := i + 1;
      }
      assert states[..i] == states;
      var offset := 0;
      var rest := offsets.Keys;
      while rest != {}
        invariant rest <= offsets.Keys
        invariant offset == SumValues(offsets - rest)
        decreases rest
      {
        Collections.HasElement(rest);
        var k :| k in rest;
        assert offsets - (rest - {k}) == (offsets - rest)[k := offsets[k]];
        SumValuesAdd(offsets - rest, k, offsets[k]);
        offset := offset + offsets[k];
        rest := rest - {k};
      }
      assert offsets - rest == offsets;
      total := sum - offset;
    }

    /** setOffsets(map): installs the given map as it is. */
    method SetOffsetsTo(m: map<int, int>)
      modifies this
      ensures offsets == m && states == old(states)
    {
      offsets := m;
    }

    /** setOffsets(): empties the offsets, updates the states and, when that
        succeeds, records every state's duration as its offset. When the
        update fails the offsets stay empty. */
    method SetOffsets(source: Option<seq<string>>, elapsed: int, uptime: int) returns (outcome: Outcome)
      modifies this
      ensures (states, outcome) == AfterUpdate(old(states), source, elapsed, uptime)
      ensures offsets == if outcome == Ok then Snapshot(states) else map[]
    {
      offsets := map[];
      outcome := UpdateStates(source, elapsed, uptime);
      assert (states, outcome) == AfterUpdate(old(states), source, elapsed, uptime);
      if outcome != Ok {
        return;
      }
      var i := 0;
      ghost var after := states;
      while i < |states|
        invariant states == after
        invariant 0 <= i <= |states|
        invariant offsets == Snapshot(states[..i])
      {
        assert states[..i + 1][..i] == states[..i];
        offsets := offsets[states[i].freq := states[i].duration];
        i := i + 1;
      }
      assert states[..i] == states;
    }

    /** removeOffsets: empties the offsets. */
    method RemoveOffsets()
      modifies this
      ensures offsets == map[] && states == old(states)
    {
      offsets := map[];
    }

    /** updateStates: reads the time_in_state lines (None: the file cannot be
        opened, which leaves the states alone), then adds the deep-sleep state
        and sorts by descending frequency. The offsets are not touched. */
    method UpdateStates(source: Option<seq<string>>, elapsed: int, uptime: int) returns (outcome: Outcome)
      modifies this
      ensures (states, outcome) == AfterUpdate(old(states), source, elapsed, uptime)
      ensures offsets == old(offsets)
    {
      if source.None? {
        return Failed(CannotOpen);
      }
      states := [];
      var failure := ReadInStates(source.value);
      ghost var r := ReadLines(source.value);
      assert states == r.parsed;
      if failure.Some? {
        return Failed(MalformedLine(failure.value));
      }
      var sleepTime := SleepTicks(elapsed, uptime);
      states := states + [CpuState(0, sleepTime)];
      states := SortDescending(states);
      outcome := Ok;
    }

    /** readInStates: appends the state of each line in turn; the first
        malformed line stops the loop, leaving the states read so far. */
    method ReadInStates(lines: seq<string>) returns (failure: Option<string>)
      modifies this
      ensures states == old(states) + ReadLines(lines).parsed
      ensures failure == ReadLines(lines).failure
      ensures offsets == old(offsets)
    {
      var i := 0;
      while i < |lines|
        invariant 0 <= i <= |lines|
        invariant offsets == old(offsets)
        invariant ReadLines(lines[..i]).failure == None
        invariant states == old(states) + ReadLines(lines[..i]).parsed
      {
        var st := ParseLine(lines[i]);
        if st.None? {
          ReadLinesStopped(lines, i, |lines|);
          assert lines[..|lines|] == lines;
          return Some(lines[i]);
        }
        ReadLinesStep(lines, i, st.value);
        states := states + [st.value];
        i := i + 1;
      }
      assert lines[..i] == lines;
      failure := None;
    }
  }
}

=== FILE: home_activity.dfy ===
/** What the home screen shows of the monitor: one row per state that has
    time on it, the labels of the other states joined with ", ", and the
    total time, every duration turned from ticks into seconds and written
    as h:mm:ss. */
module Home {
  import opened JavaText
  import opened StateMonitor

  // ---------------------------------------------------------------------
  // Durations

  /** Ticks (hundredths of a second) to whole seconds, rounded toward zero
      as Java's long division does. */
  function TicksToSeconds(ticks: int): (sec: int)
    ensures ticks >= 0 ==> sec >= 0 && sec * 100 <= ticks < sec * 100 + 100
    ensures ticks < 0 ==> sec <= 0 && sec * 100 - 100 < ticks <= sec * 100
  {
    JavaDiv(ticks, 100)
  }

  /** sToString's three fields, with Java's truncating `/` and `%`: the
      floor taken of an already truncated long quotient changes nothing. */
  function Hours(tSec: int): int {
    JavaDiv(tSec, 60 * 60)
  }

  function Minutes(tSec: int): int {
    JavaDiv(tSec - Hours(tSec) * 60 * 60, 60)
  }

  function Seconds(tSec: int): int {
    JavaRem(tSec, 60)
  }

  /** A field written after a "0" when it is below 10. */
  function Padded(n: int): string {
    (if n < 10 then "0" else "") + IntStr(n)
  }

  /** sToString: hours unpadded, then minutes and seconds. */
  function SToString(tSec: int): string {
    IntStr(Hours(tSec)) + ":" + Padded(Minutes(tSec)) + ":" + Padded(Seconds(tSec))
  }

  /** The fields of a non-negative time add back up to it, and minutes and
      seconds stay below 60. */
  lemma ClockFields(tSec: int)
    requires tSec >= 0
    ensures Hours(tSec) >= 0
    ensures 0 <= Minutes(tSec) < 60 && 0 <= Seconds(tSec) < 60
    ensures Hours(tSec) * 3600 + Minutes(tSec) * 60 + Seconds(tSec) == tSec
  {
    var h := Hours(tSec);
    var rest := tSec - h * 60 * 60;
    assert 0 <= rest < 3600;
    JavaDivNonNegative(rest, 60);
    JavaDivNonNegative(tSec, 60);
    assert tSec % 60 == rest % 60 by {
      assert tSec == rest + h * 60 * 60;
      assert tSec == rest + (h * 60) * 60;
    }
  }

  /** Reads h:mm:ss back: three fields, the hours without leading zeros,
      the last two of exactly two digits and below 60. */
  function ParseClock(text: string): (r: Option<int>)
    ensures r.Some? ==> r.value >= 0
  {
    var fields := Split(text, ':');
    if |fields| != 3 || |fields[1]| != 2 || |fields[2]| != 2
       || (|fields[0]| > 1 && fields[0][0] == '0') then None
    else match (ParseNat(fields[0]), ParseNat(fields[1]), ParseNat(fields[2]))
      case (Some(h), Some(m), Some(s)) =>
        if m < 60 && s < 60 then Some(h * 3600 + m * 60 + s) else None
      case _ => None
  }

  /** A field below 60 is written as exactly two digits that read back as it. */
  lemma PaddedField(n: int)
    requires 0 <= n < 60
    ensures |Padded(n)| == 2 && ':' !in Padded(n)
    ensures ParseNat(Padded(n)) == Some(n)
  {
    var p := Padded(n);
    NatStrRoundTrip(n);
    if n < 10 {
      assert p == "0" + NatStr(n) && |NatStr(n)| == 1;
      assert p[..1] == "0";
      assert DigitsValue(p) == DigitsValue("0") * 10 + (p[1] as int - '0' as int);
      assert DigitsValue(NatStr(n)) == n;
    } else {
      assert p == NatStr(n);
      assert NatStr(n) == NatStr(n / 10) + [DigitChar(n % 10)];
    }
    assert forall i :: 0 <= i < |p| ==> p[i] != ':';
  }

  lemma IntStrNoColon(n: int)
    ensures ':' !in IntStr(n)
  {
    var s := IntStr(n);
    assert forall i :: 0 <= i < |s| ==> s[i] != ':';
  }

  /** Three colon-free fields joined by colons split back into them. */
  lemma SplitThreeFields(h: string, m: string, s: string)
    requires ':' !in h && ':' !in m && ':' !in s && s != []
    ensures Split(h + ":" + m + ":" + s, ':') == [h, m, s]
  {
    var text := h + ":" + m + ":" + s;
    assert text == (h + [':'] + m) + [':'] + s;
    RawSplitConcat(h + [':'] + m, ':', s);
    RawSplitConcat(h, ':', m);
    RawSplitNoSep(h, ':');
    RawSplitNoSep(m, ':');
    RawSplitNoSep(s, ':');
    assert text[|h|] == ':';
    assert RawSplit(text, ':') == [h, m, s];
    assert DropTrailingEmpty([h, m, s]) == [h, m, s];
  }

  /** Reading back what sToString wrote gives the time back, so distinct
      non-negative times are shown differently. */
  lemma ClockRoundTrip(tSec: int)
    requires tSec >= 0
    ensures ParseClock(SToString(tSec)) == Some(tSec)
  {
    ClockFields(tSec);
    PaddedField(Minutes(tSec));
    PaddedField(Seconds(tSec));
    IntStrNoColon(Hours(tSec));
    SplitThreeFields(IntStr(Hours(tSec)), Padded(Minutes(tSec)), Padded(Seconds(tSec)));
    NatStrRoundTrip(Hours(tSec));
  }

  /** The hours field of a non-negative time is Long.toString of the hours:
      never padded, so a leading zero appears only for zero hours. */
  lemma HoursUnpadded(tSec: int)
    requires tSec >= 0
    ensures Split(SToString(tSec), ':')
            == [IntStr(Hours(tSec)), Padded(Minutes(tSec)), Padded(Seconds(tSec))]
    ensures IntStr(Hours(tSec))[0] != '-'
    ensures IntStr(Hours(tSec)) == "0" || IntStr(Hours(tSec))[0] != '0'
  {
    ClockFields(tSec);
    var hours := Hours(tSec);
    var h, m, sec := IntStr(hours), Padded(Minutes(tSec)), Padded(Seconds(tSec));
    assert h == NatStr(hours);
    assert h == "0" || h[0] != '0' by {
      if |h| == 1 && h[0] == '0' {
        assert h == "0";
      }
    }
    PaddedField(Minutes(tSec));
    PaddedField(Seconds(tSec));
    IntStrNoColon(hours);
    SplitThreeFields(h, m, sec);
  }

  /** A padded hours field is not read back. */
  lemma PaddedHoursRejected()
    ensures ParseClock("00:00:05") == None
  {
    SplitThreeFields("00", "00", "05");
    assert "00" + ":" + "00" + ":" + "05" == "00:00:05";
  }

  lemma ShortTexts()
    ensures IntStr(0) == "0" && Padded(0) == "00" && Padded(-2) == "0-2"
  {
    assert NatStr(0) == "0" && NatStr(2) == "2";
  }

  lemma FieldsOfMinusTwo()
    ensures Hours(-2) == 0 && Minutes(-2) == 0 && Seconds(-2) == -2
  {
    assert JavaDiv(-2, 3600) == 0;
  }

  lemma MinusTwoSeconds()
    ensures SToString(-2) == "0:00:0-2"
  {
    FieldsOfMinusTwo();
    ShortTexts();
  }

  /** A negative total, which getTotalStateTime can return, gives a mangled
      text: -200 ticks are shown as "0:00:0-2". */
  lemma NegativeTotalText()
    ensures SToString(TicksToSeconds(-200)) == "0:00:0-2"
  {
    assert TicksToSeconds(-200) == -2;
    MinusTwoSeconds();
  }

  // ---------------------------------------------------------------------
  // Labels

  /** A state's name on screen: "Deep Sleep" for frequency 0, otherwise the
      kHz frequency in whole MHz (truncated) followed by " MHz". */
  function FreqLabel(freq: int): string {
    if freq == 0 then "Deep Sleep" else IntStr(JavaDiv(freq, 1000)) + " MHz"
  }

  datatype LabelMeaning = DeepSleep | Megahertz(mhz: int) | Unreadable

  /** What a reader of the screen takes a label to mean. */
  function ReadLabel(name: string): LabelMeaning {
    if name == "Deep Sleep" then DeepSleep
    else if |name| >= 4 && name[|name| - 4..] == " MHz" then
      (match ParseInt(name[..|name| - 4])
       case Some(v) => Megahertz(v)
       case None => Unreadable)
    else Unreadable
  }

  /** Every name reads back as what it names: deep sleep exactly for
      frequency 0, and otherwise the truncated MHz value (so a frequency
      below 1000 kHz shows as "0 MHz", never as "Deep Sleep"). */
  lemma LabelMeaningOf(freq: int)
    ensures ReadLabel(FreqLabel(freq)) == if freq == 0 then DeepSleep else Megahertz(JavaDiv(freq, 1000))
  {
    if freq != 0 {
      var n := IntStr(JavaDiv(freq, 1000));
      var name := n + " MHz";
      assert name[|name| - 4..] == " MHz";
      assert name[..|name| - 4] == n;
      IntStrRoundTrip(JavaDiv(freq, 1000));
      assert name != "Deep Sleep" by {
        assert name[|name| - 1] == 'z';
      }
    }
  }

  /** No name holds a comma, so the joined unused list splits back apart. */
  lemma FreqLabelNoComma(freq: int)
    ensures ',' !in FreqLabel(freq)
  {
    var name := FreqLabel(freq);
    if freq != 0 {
      var n := IntStr(JavaDiv(freq, 1000));
      assert forall i :: 0 <= i < |n| ==> name[i] == n[i] != ',';
      assert forall i :: |n| <= i < |name| ==> name[i] == " MHz"[i - |n|];
    }
    assert forall i :: 0 <= i < |name| ==> name[i] != ',';
  }

  // ---------------------------------------------------------------------
  // Rows and unused states

  /** The states that get a row: those with time on them, in order. */
  function Used(s: seq<CpuState>): (r: seq<CpuState>)
    ensures forall i :: 0 <= i < |r| ==> r[i].duration > 0
  {
    if s == [] then []
    else Used(s[..|s| - 1]) + (if s[|s| - 1].duration > 0 then [s[|s| - 1]] else [])
  }

  /** The states listed as unused: those without time on them, in order. */
  function Unused(s: seq<CpuState>): (r: seq<CpuState>)
    ensures forall i :: 0 <= i < |r| ==> r[i].duration <= 0
  {
    if s == [] then []
    else Unused(s[..|s| - 1]) + (if s[|s| - 1].duration > 0 then [] else [s[|s| - 1]])
  }

  /** Every state lands in exactly one of the two lists. */
  lemma {:induction false} PartitionIsPermutation(s: seq<CpuState>)
    ensures multiset(Used(s)) + multiset(Unused(s)) == multiset(s)
    ensures |Used(s)| + |Unused(s)| == |s|
  {
    if s != [] {
      var init, last := s[..|s| - 1], s[|s| - 1];
      PartitionIsPermutation(init);
      assert s == init + [last];
      assert multiset(s) == multiset(init) + multiset{last};
      if last.duration > 0 {
        assert Used(s) == Used(init) + [last];
        assert Unused(s) == Unused(init);
      } else {
        assert Used(s) == Used(init);
        assert Unused(s) == Unused(init) + [last];
      }
    }
  }

  /** Both lists keep the order of the states: each is built piece by piece
      from consecutive parts of the input. */
  lemma {:induction false} PartitionKeepsOrder(s: seq<CpuState>, t: seq<CpuState>)
    ensures Used(s + t) == Used(s) + Used(t)
    ensures Unused(s + t) == Unused(s) + Unused(t)
    decreases |t|
  {
    if t == [] {
      assert s + t == s;
    } else {
      var init := t[..|t| - 1];
      assert (s + t)[..|s + t| - 1] == s + init;
      PartitionKeepsOrder(s, init);
    }
  }

  /** One row of the state list: the label and the time, leaving out the
      percentage and its progress bar. */
  datatype StateRow = StateRow(name: string, time: string)

  function RowOf(st: CpuState): StateRow {
    StateRow(FreqLabel(st.freq), SToString(TicksToSeconds(st.duration)))
  }

  function Rows(s: seq<CpuState>): seq<StateRow> {
    seq(|s|, i requires 0 <= i < |s| => RowOf(s[i]))
  }

  function Labels(s: seq<CpuState>): (r: seq<string>)
    ensures |r| == |s| && forall i :: 0 <= i < |s| ==> r[i] == FreqLabel(s[i].freq)
  {
    seq(|s|, i requires 0 <= i < |s| => FreqLabel(s[i].freq))
  }

  lemma RowsSnoc(s: seq<CpuState>, x: CpuState)
    ensures Rows(s + [x]) == Rows(s) + [RowOf(x)]
  {
  }

  lemma LabelsSnoc(s: seq<CpuState>, x: CpuState)
    ensures Labels(s + [x]) == Labels(s) + [FreqLabel(x.freq)]
  {
  }

  /** The loop of updateView over the states: a row for each state with time
      on it, the label of every other state in the unused list. */
  method PartitionStates(states: seq<CpuState>) returns (rows: seq<StateRow>, extra: seq<string>)
    ensures rows == Rows(Used(states))
    ensures extra == Labels(Unused(states))
  {
    rows := [];
    extra := [];
    var i := 0;
    while i < |states|
      invariant 0 <= i <= |states|
      invariant rows == Rows(Used(states[..i]))
      invariant extra == Labels(Unused(states[..i]))
    {
      var state := states[i];
      assert states[..i + 1][..i] == states[..i];
      ghost var used, unused := Used(states[..i]), Unused(states[..i]);
      if state.duration > 0 {
        assert Used(states[..i + 1]) == used + [state];
        RowsSnoc(used, state);
        rows := rows + [RowOf(state)];
      } else {
        assert Unused(states[..i + 1]) == unused + [state];
        LabelsSnoc(unused, state);
        extra := extra + [FreqLabel(state.freq)];
      }
      i := i + 1;
    }
    assert states[..i] == states;
  }

  // ---------------------------------------------------------------------
  // Joining the unused labels

  /** The items with ", " between consecutive ones. */
  function Join(items: seq<string>): string {
    if items == [] then ""
    else if |items| == 1 then items[0]
    else Join(items[..|items| - 1]) + ", " + items[|items| - 1]
  }

  /** The join loop of updateView, with its counter `n`. */
  method JoinLabels(items: seq<string>) returns (str: string)
    ensures str == Join(items)
  {
    var n := 0;
    str := "";
    while n < |items|
      invariant 0 <= n <= |items|
      invariant str == Join(items[..n])
    {
      assert items[..n + 1][..n] == items[..n];
      if n > 0 {
        str := str + ", ";
      }
      str := str + items[n];
      n := n + 1;
    }
    assert items[..n] == items;
  }

  lemma SpacedNoComma(t: string)
    requires ',' !in t
    ensures ',' !in " " + t
  {
    assert forall i :: 1 <= i < |" " + t| ==> (" " + t)[i] == t[i - 1];
  }

  /** Splitting the joined text on "," gives the items back, each after the
      first behind the one space of its separator: no separator is added at
      either end and none is lost. */
  lemma {:induction false} JoinSplits(items: seq<string>)
    requires items != []
    requires forall i :: 0 <= i < |items| ==> ',' !in items[i]
    ensures |RawSplit(Join(items), ',')| == |items|
    ensures RawSplit(Join(items), ',')[0] == items[0]
    ensures forall i :: 1 <= i < |items| ==> RawSplit(Join(items), ',')[i] == " " + items[i]
  {
    if |items| == 1 {
      RawSplitNoSep(items[0], ',');
    } else {
      var init, last := items[..|items| - 1], items[|items| - 1];
      JoinSplits(init);
      assert Join(items) == Join(init) + [','] + (" " + last);
      RawSplitConcat(Join(init), ',', " " + last);
      SpacedNoComma(last);
      RawSplitNoSep(" " + last, ',');
      var p := RawSplit(Join(items), ',');
      assert p == RawSplit(Join(init), ',') + [" " + last];
      forall i | 1 <= i < |items| ensures p[i] == " " + items[i] {
        if i < |items| - 1 {
          assert items[i] == init[i];
        }
      }
    }
  }

  /** The unused section lists every unused state's label and nothing else. */
  lemma UnusedTextLists(s: seq<CpuState>)
    requires Unused(s) != []
    ensures |RawSplit(Join(Labels(Unused(s))), ',')| == |Unused(s)|
    ensures RawSplit(Join(Labels(Unused(s))), ',')[0] == FreqLabel(Unused(s)[0].freq)
    ensures forall i :: 1 <= i < |Unused(s)| ==>
              RawSplit(Join(Labels(Unused(s))), ',')[i] == " " + FreqLabel(Unused(s)[i].freq)
  {
    var labels := Labels(Unused(s));
    forall i | 0 <= i < |labels| ensures ',' !in labels[i] {
      FreqLabelNoComma(Unused(s)[i].freq);
    }
    JoinSplits(labels);
  }

  // ---------------------------------------------------------------------
  // updateView

  /** What updateView leaves on the screen: the state rows and whether
      their view is visible, the red warning, whether the total and its
      header are visible, the total text, and the unused section (None
      when it is hidden). The kernel version line is not part of this
      model. */
  datatype Screen = Screen(rows: seq<StateRow>, rowsShown: bool, warning: bool,
                           totalShown: bool, total: string, unused: Option<string>)

  /** The row per used state and the unused section of updateView: the
      joined labels of the unused states, hidden (None) when there are none. */
  method StateSections(states: seq<CpuState>) returns (rows: seq<StateRow>, unused: Option<string>)
    ensures rows == Rows(Used(states))
    ensures unused == if Unused(states) == [] then None else Some(Join(Labels(Unused(states))))
  {
    var extra;
    rows, extra := PartitionStates(states);
    unused := None;
    if |extra| > 0 {
      var str := JoinLabels(extra);
      unused := Some(str);
    }
  }

  /** updateView: the states from getStates split into rows and unused
      labels, the total state time in seconds, and the unused section only
      when it has an entry. When getStates reports nothing the warning is
      switched on and the rows and the total are hidden; nothing switches
      them back, so they keep what `previous` had otherwise. */
  method UpdateView(monitor: CpuStateMonitor, previous: Screen) returns (screen: Screen)
    modifies monitor
    ensures monitor.states == old(monitor.states)
    ensures monitor.offsets == OffsetsAfterRead(old(monitor.states), old(monitor.offsets))
    ensures screen.warning == (previous.warning || |old(monitor.states)| == 0)
    ensures screen.rowsShown == (previous.rowsShown && |old(monitor.states)| != 0)
    ensures screen.totalShown == (previous.totalShown && |old(monitor.states)| != 0)
    ensures screen.total == SToString(TicksToSeconds(SumDurations(monitor.states) - SumValues(monitor.offsets)))
    ensures var shown := AdjustedStates(old(monitor.states), old(monitor.offsets));
            && screen.rows == Rows(Used(shown))
            && screen.unused == if Unused(shown) == [] then None else Some(Join(Labels(Unused(shown))))
  {
    ghost var raw, before := monitor.states, monitor.offsets;
    var states := monitor.GetStates();
    var rows, unused := StateSections(states);
    GetStatesIdempotent(raw, before);
    var again := monitor.GetStates();
    assert |again| == |raw|;
    // the warning is only ever switched on, the rows and total only off
    var empty := |again| == 0;
    var warning, rowsShown, totalShown := previous.warning || empty, previous.rowsShown && !empty, previous.totalShown && !empty;
    var ticks := monitor.GetTotalStateTime();
    var total := SToString(TicksToSeconds(ticks));
    screen := Screen(rows, rowsShown, warning, totalShown, total, unused);
  }
}

=== FILE: java_text.dfy ===
/** The pieces of java.lang behaviour the cpuspy sources rely on: truncating
    integer division, decimal conversion in both directions (Integer.toString,
    Integer.parseInt / Long.parseLong) and String.split with a one-character
    pattern. Integers are mathematical; the 32/64-bit widths are not modelled. */
module JavaText {

  datatype Option<+T> = None | Some(value: T)

  function Abs(n: int): (r: int)
    ensures r >= 0 && (r == n || r == -n)
  {
    if n < 0 then -n else n
  }

  /** Java's `/` on int and long: the quotient is rounded toward zero. */
  function JavaDiv(n: int, d: int): (q: int)
    requires d != 0
    ensures n >= 0 ==> 0 <= n - q * d < Abs(d)
    ensures n < 0 ==> -Abs(d) < n - q * d <= 0
  {
    if n >= 0 then n / d else -((-n) / d)
  }

  /** Java's `%`: the remainder takes the sign of the dividend. */
  function JavaRem(n: int, d: int): (r: int)
    requires d != 0
    ensures n >= 0 ==> 0 <= r < Abs(d)
    ensures n < 0 ==> -Abs(d) < r <= 0
  {
    n - JavaDiv(n, d) * d
  }

  /** On non-negative operands Java's operators agree with Dafny's. */
  lemma JavaDivNonNegative(n: int, d: int)
    requires n >= 0 && d > 0
    ensures JavaDiv(n, d) == n / d && JavaRem(n, d) == n % d
  {
  }

  // ---------------------------------------------------------------------
  // Decimal text

  predicate IsDigit(c: char) {
    '0' <= c <= '9'
  }

  predicate AllDigits(s: string) {
    forall i :: 0 <= i < |s| ==> IsDigit(s[i])
  }

  function DigitChar(d: nat): (c: char)
    requires d < 10
    ensures IsDigit(c) && c as int - '0' as int == d
  {
    ('0' as int + d) as char
  }

  /** Integer.toString of a non-negative value: no sign, no leading zeros. */
  function NatStr(n: nat): (s: string)
    ensures |s| >= 1 && AllDigits(s)
    ensures (n < 10) == (|s| == 1)
    ensures |s| == 1 || s[0] != '0'
    decreases n
  {
    if n < 10 then [DigitChar(n)] else NatStr(n / 10) + [DigitChar(n % 10)]
  }

  /** Integer.toString / Long.toString: a '-' in front of negative values. */
  function IntStr(n: int): (s: string)
    ensures |s| >= 1
    ensures forall i :: 0 <= i < |s| ==> IsDigit(s[i]) || (i == 0 && s[i] == '-' && n < 0)
  {
    if n < 0 then "-" + NatStr(-n) else NatStr(n)
  }

  /** The value of a string of decimal digits, most significant first. */
  function DigitsValue(s: string): nat
    requires AllDigits(s)
  {
    if s == [] then 0
    else DigitsValue(s[..|s| - 1]) * 10 + (s[|s| - 1] as int - '0' as int)
  }

  function ParseNat(s: string): (r: Option<nat>)
    ensures r.Some? <==> |s| > 0 && AllDigits(s)
  {
    if |s| > 0 && AllDigits(s) then Some(DigitsValue(s)) else None
  }

  /** Integer.parseInt / Long.parseLong over ASCII digits: an optional sign
      followed by at least one digit; anything else is a NumberFormatException,
      here None. */
  function ParseInt(s: string): (r: Option<int>)
    ensures r.Some? ==> |s| > 0 && forall i :: 0 <= i < |s| ==>
                          IsDigit(s[i]) || (i == 0 && (s[i] == '-' || s[i] == '+'))
    ensures s == [] ==> r == None
  {
    if |s| > 0 && (s[0] == '-' || s[0] == '+') then
      match ParseNat(s[1..])
      case None => None
      case Some(v) => Some(if s[0] == '-' then -(v as int) else v as int)
    else
      match ParseNat(s)
      case None => None
      case Some(v) => Some(v)
  }

  lemma {:induction false} DigitsValueOfNatStr(n: nat)
    ensures DigitsValue(NatStr(n)) == n
    decreases n
  {
    var s := NatStr(n);
    if n >= 10 {
      DigitsValueOfNatStr(n / 10);
      assert s[..|s| - 1] == NatStr(n / 10);
    }
  }

  /** Reading back what NatStr wrote gives the value back. */
  lemma NatStrRoundTrip(n: nat)
    ensures ParseNat(NatStr(n)) == Some(n)
  {
    DigitsValueOfNatStr(n);
  }

  /** Integer.parseInt(Integer.toString(n)) == n for every n. */
  lemma IntStrRoundTrip(n: int)
    ensures ParseInt(IntStr(n)) == Some(n)
  {
    var s := IntStr(n);
    if n < 0 {
      NatStrRoundTrip(-n);
      assert s == "-" + NatStr(-n);
      assert s[0] == '-' && s[1..] == NatStr(-n);
      assert ParseNat(s[1..]) == Some(-n);
    } else {
      NatStrRoundTrip(n);
      assert s == NatStr(n);
      assert IsDigit(s[0]);
    }
  }

  // ---------------------------------------------------------------------
  // String.split with a one-character pattern

  /** Every piece between occurrences of `sep`, including empty ones: one more
      piece than there are separators. Built from the back, so that appending
      a character extends the last piece and appending `sep` opens a new one. */
  function RawSplit(s: string, sep: char): (pieces: seq<string>)
    ensures |pieces| >= 1
  {
    if s == [] then [""]
    else
      var r := RawSplit(s[..|s| - 1], sep);
      if s[|s| - 1] == sep then r + [""]
      else r[..|r| - 1] + [r[|r| - 1] + [s[|s| - 1]]]
  }

  /** The pieces put back together with `sep` between them. */
  function JoinWith(pieces: seq<string>, sep: char): string
  {
    if pieces == [] then ""
    else if |pieces| == 1 then pieces[0]
    else JoinWith(pieces[..|pieces| - 1], sep) + [sep] + pieces[|pieces| - 1]
  }

  /** Java's split with limit 0 removes every trailing empty string. */
  function DropTrailingEmpty(pieces: seq<string>): (r: seq<string>)
    ensures |r| <= |pieces| && r == pieces[..|r|]
    ensures r == [] || r[|r| - 1] != ""
    ensures forall i :: |r| <= i < |pieces| ==> pieces[i] == ""
  {
    if pieces != [] && pieces[|pieces| - 1] == "" then DropTrailingEmpty(pieces[..|pieces| - 1])
    else pieces
  }

  /** String.split(String.valueOf(sep)): when `sep` does not occur the result
      is the whole string (so "" gives [""]); otherwise the pieces with the
      trailing empty ones removed. */
  function Split(s: string, sep: char): (pieces: seq<string>)
    ensures forall i :: 0 <= i < |pieces| ==> sep !in pieces[i]
    ensures sep !in s ==> pieces == [s]
    ensures sep in s ==> pieces == [] || pieces[|pieces| - 1] != ""
    ensures sep in s ==> var raw := RawSplit(s, sep);
                         && |pieces| <= |raw| && pieces == raw[..|pieces|]
                         && forall i :: |pieces| <= i < |raw| ==> raw[i] == ""
  {
    if sep !in s then [s]
    else
      RawSplitPieces(s, sep);
      DropTrailingEmpty(RawSplit(s, sep))
  }

  /** No piece holds the separator. */
  lemma {:induction false} RawSplitPieces(s: string, sep: char)
    ensures forall i :: 0 <= i < |RawSplit(s, sep)| ==> sep !in RawSplit(s, sep)[i]
  {
    if s != [] {
      var init, c := s[..|s| - 1], s[|s| - 1];
      RawSplitPieces(init, sep);
      var r := RawSplit(init, sep);
      if c != sep {
        var last := r[|r| - 1];
        assert sep !in last;
        assert sep !in last + [c] by {
          assert forall k :: 0 <= k < |last| ==> (last + [c])[k] == last[k];
        }
      }
    }
  }

  lemma JoinWithSnoc(p: seq<string>, sep: char, x: string)
    requires p != []
    ensures JoinWith(p + [x], sep) == JoinWith(p, sep) + [sep] + x
  {
    assert (p + [x])[..|p|] == p;
  }

  /** Splitting and joining again with the same separator is the identity. */
  lemma {:induction false} RawSplitJoin(s: string, sep: char)
    ensures JoinWith(RawSplit(s, sep), sep) == s
  {
    if s != [] {
      var init, c := s[..|s| - 1], s[|s| - 1];
      assert s == init + [c];
      var r := RawSplit(init, sep);
      RawSplitJoin(init, sep);
      if c == sep {
        JoinWithSnoc(r, sep, "");
      } else {
        var p, l := r[..|r| - 1], r[|r| - 1];
        assert RawSplit(s, sep) == p + [l + [c]];
        if p == [] {
          assert r == [l];
        } else {
          assert r == p + [l];
          JoinWithSnoc(p, sep, l);
          JoinWithSnoc(p, sep, l + [c]);
        }
      }
    }
  }

  /** A string without the separator is one piece. */
  lemma {:induction false} RawSplitNoSep(s: string, sep: char)
    requires sep !in s
    ensures RawSplit(s, sep) == [s]
  {
    if s != [] {
      var init := s[..|s| - 1];
      RawSplitNoSep(init, sep);
      assert init + [s[|s| - 1]] == s;
    }
  }

  /** Appending the separator opens a new, empty piece. */
  lemma RawSplitSnocSep(s: string, sep: char)
    ensures RawSplit(s + [sep], sep) == RawSplit(s, sep) + [""]
  {
    assert (s + [sep])[..|s|] == s;
  }

  /** Appending another character extends the last piece. */
  lemma RawSplitSnocChar(s: string, sep: char, c: char)
    requires c != sep
    ensures var r := RawSplit(s, sep);
            RawSplit(s + [c], sep) == r[..|r| - 1] + [r[|r| - 1] + [c]]
  {
    assert (s + [c])[..|s|] == s;
  }

  lemma SnocAssociates<T>(x: seq<T>, y: seq<T>, z: T)
    ensures (x + y) + [z] == x + (y + [z])
  {
  }

  /** The step of RawSplitConcat when one more separator follows. */
  lemma RawSplitConcatSep(a: string, sep: char, b: string)
    requires RawSplit(a + [sep] + b, sep) == RawSplit(a, sep) + RawSplit(b, sep)
    ensures RawSplit(a + [sep] + (b + [sep]), sep) == RawSplit(a, sep) + RawSplit(b + [sep], sep)
  {
    var front := a + [sep] + b;
    assert a + [sep] + (b + [sep]) == front + [sep];
    RawSplitSnocSep(front, sep);
    RawSplitSnocSep(b, sep);
    SnocAssociates(RawSplit(a, sep), RawSplit(b, sep), "");
  }

  /** Extending the last piece of `ra + rb` extends the last piece of `rb`. */
  lemma ExtendLastOfConcat(ra: seq<string>, rb: seq<string>, c: char)
    requires rb != []
    ensures var r := ra + rb;
            r[..|r| - 1] + [r[|r| - 1] + [c]] == ra + (rb[..|rb| - 1] + [rb[|rb| - 1] + [c]])
  {
    var r := ra + rb;
    assert r[..|r| - 1] == ra + rb[..|rb| - 1];
  }

  /** Appending a non-separator to two strings whose splits agree after a
      common prefix of pieces keeps them agreeing. */
  lemma RawSplitSnocCharBoth(x: string, y: string, ra: seq<string>, sep: char, c: char)
    requires c != sep
    requires RawSplit(x, sep) == ra + RawSplit(y, sep)
    ensures RawSplit(x + [c], sep) == ra + RawSplit(y + [c], sep)
  {
    RawSplitSnocChar(x, sep, c);
    RawSplitSnocChar(y, sep, c);
    ExtendLastOfConcat(ra, RawSplit(y, sep), c);
  }

  /** The step of RawSplitConcat when one more other character follows. */
  lemma RawSplitConcatChar(a: string, sep: char, b: string, c: char)
    requires c != sep
    requires RawSplit(a + [sep] + b, sep) == RawSplit(a, sep) + RawSplit(b, sep)
    ensures RawSplit(a + [sep] + (b + [c]), sep) == RawSplit(a, sep) + RawSplit(b + [c], sep)
  {
    var front := a + [sep] + b;
    assert a + [sep] + (b + [c]) == front + [c];
    RawSplitSnocCharBoth(front, b, RawSplit(a, sep), sep, c);
  }

  /** A separator between two strings splits exactly there. */
  lemma {:induction false} RawSplitConcat(a: string, sep: char, b: string)
    ensures RawSplit(a + [sep] + b, sep) == RawSplit(a, sep) + RawSplit(b, sep)
    decreases |b|
  {
    if b == [] {
      assert a + [sep] + b == a + [sep];
      RawSplitSnocSep(a, sep);
    } else {
      var b', c := b[..|b| - 1], b[|b| - 1];
      assert b == b' + [c];
      RawSplitConcat(a, sep, b');
      if c == sep {
        RawSplitConcatSep(a, sep, b');
      } else {
        RawSplitConcatChar(a, sep, b', c);
      }
    }
  }

  /** A first token without the separator, followed by nothing or by the
      separator, is the first piece. */
  lemma SplitFirstToken(tok: string, rest: string, sep: char)
    requires sep !in tok && tok != []
    requires rest == [] || rest[0] == sep
    ensures var pieces := Split(tok + rest, sep);
            pieces != [] && pieces[0] == tok
  {
    if rest == [] {
      assert tok + rest == tok;
    } else {
      var after := rest[1..];
      assert tok + rest == tok + [sep] + after;
      assert (tok + rest)[|tok|] == sep;
      RawSplitConcat(tok, sep, after);
      RawSplitNoSep(tok, sep);
      var raw := RawSplit(tok + rest, sep);
      assert raw[0] == tok && raw[0] != "";
      var pieces := Split(tok + rest, sep);
      assert |pieces| > 0;
      assert pieces[0] == raw[0];
    }
  }

  /** Only separators after a separator-free token add nothing but empty
      raw pieces. */
  lemma {:induction false} RawSplitTrailingSeps(tok: string, seps: string, sep: char)
    requires sep !in tok
    requires forall i :: 0 <= i < |seps| ==> seps[i] == sep
    ensures var raw := RawSplit(tok + seps, sep);
            |raw| == 1 + |seps| && raw[0] == tok && forall i :: 1 <= i < |raw| ==> raw[i] == ""
    decreases |seps|
  {
    if seps == [] {
      assert tok + seps == tok;
      RawSplitNoSep(tok, sep);
    } else {
      var init := seps[..|seps| - 1];
      RawSplitTrailingSeps(tok, init, sep);
      assert tok + seps == (tok + init) + [sep];
      RawSplitSnocSep(tok + init, sep);
    }
  }

  /** A separator-free token followed only by separators splits into at
      most that token: Java drops the trailing empty strings. */
  lemma SplitTrailingSeps(tok: string, seps: string, sep: char)
    requires sep !in tok
    requires forall i :: 0 <= i < |seps| ==> seps[i] == sep
    ensures |Split(tok + seps, sep)| <= 1
  {
    RawSplitTrailingSeps(tok, seps, sep);
    var raw := RawSplit(tok + seps, sep);
    var pieces := Split(tok + seps, sep);
    if seps != [] {
      assert (tok + seps)[|tok|] == sep;
      assert pieces == [] || raw[|pieces| - 1] != "";
    } else {
      assert tok + seps == tok;
    }
  }
}
